=== FILE: README.md ===
# GatherBuddy gathering nodes in Dafny

This project models the gathering-node record of GatherBuddy (`Classes/Node.cs`).
GatherBuddy is a helper for finding gathering spots in Final Fantasy XIV. A node
combines five parts, and each part is its own Dafny module:

- `NodeMeta` (node_meta.dfy) classifies a node. It holds the gathering type, the
  node type, the gathering-point row id and the level. The gathering type is
  kept as its 32-bit code, because the cast from the game data does not check
  it against the five named members. Two bit tests sort the codes into the
  miner and botanist families, and records are ordered by row id with
  unchecked 32-bit subtraction.
- `NodeItems` (node_items.dfy) holds up to nine item slots. It fills the first
  free slot and records the node in the item's node list. It builds a node's
  slots from a list of item ids, answers "does this node carry all these
  names?" and "is it empty?", and prints its items joined by a vertical bar.
- `SubNodes` (sub_nodes.dfy) holds the sightings of a node's positions in one
  territory. It keeps the truncated integer mean of the known positions, plus
  the aetheryte closest to that mean.
- `NodeTimes` (node_times.dfy) holds the 24-bit mask of the Eorzea hours at
  which the node is up. The mask is built from an ephemeral start/end window or
  from a table of rare-pop slots. It answers `IsUp` and `AlwaysUp`, and it
  renders the mask as a table of 24 digits or as a human-readable list of hour
  ranges.
- `Node` (node.dfy) ties the parts together. It picks the coordinates and the
  aetheryte from a manual override or from the sightings, it delegates
  comparison to its `NodeMeta`, and it adds an item with a log entry when the
  slots are full.

Support modules:

- `Wrappers` holds `Option` and `Result`.
- `Text` holds `Join`, two-digit padding, left padding and reversal.

How the model maps the C# runtime:

- Null references are `Option`s.
- A C# exception the code can raise becomes `Failure(NullDereference)` or
  `Failure(DivideByZero)` of a `Result`. This replaces a precondition that
  would forbid the input, so the throwing paths are stated, not excluded.
  Where the object has already changed when the exception is raised
  (`SubNodes.RecomputeAverage`, `SubNodes.AddNodeLocation`), the state it is
  left in is returned alongside the failure.
- Mutating members are pure functions from the old state to the new one.
- `int` is unbounded, and the 32-bit wrap is written out where the code relies
  on it (`NodeMeta.WrapInt32`).
- `double` is modelled as `real`.

The node lists of items (`Gatherable.NodeList`) are a `Registry` map from item
id to a sequence of node references. Collaborators whose code is not part of
this model are function parameters:

- the merge of a repeated sighting, `NodeLocation.AddLocation`;
- the distance to an aetheryte, `Aetheryte.WorldDistance`;
- the id-to-item lookup of `ItemManager`.

## Model

| member | source | states |
|---|---|---|
| NodeMeta.WrapInt32 | Classes/Node.cs:44-57 | the result is a 32-bit `int` congruent to its argument modulo 2^32, and a value already in range is kept, as the unchecked `(int)` cast and subtraction give |
| NodeMeta.FromRow | Classes/Node.cs:41-47 | the record keeps the node type, the level and the type code as it comes, named member or not; a row id below 2^31 is kept, and a larger one wraps to the negative id the `(int)` cast gives |
| NodeMeta.IsMiner | Classes/Node.cs:49 | over every 32-bit code, the bit test holds exactly for Mining (0) and Quarrying (1) |
| NodeMeta.IsBotanist | Classes/Node.cs:50 | among the named members the bit test holds exactly for Logging and Harvesting; over every code, exactly for codes equal to 2 or 3 modulo 4 |
| NodeMeta.FamiliesDisjoint | Classes/Node.cs:49-50 | no code is both miner and botanist, and among the named members Spearfishing is exactly the one in neither family |
| NodeMeta.UnnamedCodes | Classes/Node.cs:45-50 | a code outside the five members, which the unchecked cast lets through, is never a miner; codes 6 and 7 count as botanist and 5 as neither |
| NodeMeta.CompareTo | Classes/Node.cs:52-58 | null compares as 1; a non-`NodeMeta` argument throws a null dereference; otherwise the answer is congruent to the id difference modulo 2^32 |
| NodeMeta.CompareOrdersByRowId | Classes/Node.cs:57 | when the id difference fits in 32 bits, the sign of the comparison is the order of the row ids, in all three directions |
| NodeMeta.CompareAntisymmetric | Classes/Node.cs:52-58 | for non-negative row ids, a<b exactly when b>a, and ties are symmetric |
| NodeMeta.CompareNotAntisymmetric | Classes/Node.cs:57 | ids -2^31 and 0 differ by exactly 2^31, so each compares below the other |
| NodeMeta.CompareOverflowReverses | Classes/Node.cs:57 | the subtraction overflows for ids -2^31 and 1, and the lowest id compares above 1 |
| NodeMeta.CompareExamples | Classes/Node.cs:52-58 | ids 10 and 20 compare as -10 and 10; null compares as 1 |
| NodeItems.Enlist | Classes/Node.cs:110 | the node is appended to this item's node list, and every other item's list is unchanged |
| NodeItems.FirstNull | Classes/Node.cs:106-107 | the found index is a free slot with every earlier slot taken; there is none exactly when all slots are taken |
| NodeItems.SetFirstNullItem | Classes/Node.cs:104-114 | the answer is true exactly when some slot is free; then the lowest free slot gets the item, the other slots are kept and the node is appended to the item's list; when false, slots and lists are unchanged |
| NodeItems.InsertIntoLayout | Classes/Node.cs:104-114 | adding to the first k<9 slots fills slot k and appends the node; adding to nine filled slots changes nothing and answers false |
| NodeItems.InsertAllFillsInOrder | Classes/Node.cs:104-114 | inserting a list into empty slots places its first nine items in order, enlists the node for exactly those, and reports success exactly for the first nine |
| NodeItems.NoDuplicateCheck | Classes/Node.cs:104-114 | adding the same item twice to slots with room for two occupies two slots, and the node is listed twice for that item |
| NodeItems.InsertAll | Classes/Node.cs:128-132 | the constructor's loop inserts the found items one after another and collects one answer per item |
| NodeItems.InsertAllSnoc | Classes/Node.cs:104-114 | inserting a list with one more item at the end is the insertion of the shorter list followed by one more call for the new item |
| NodeItems.Found | Classes/Node.cs:128-131 | the items kept are exactly those of the ids the lookup knows: every kept item comes from a known id, and every known id's item is kept |
| NodeItems.FoundPrefix | Classes/Node.cs:128-131 | the items found for a prefix of the id list start the items found for the whole list |
| NodeItems.FoundInOrder | Classes/Node.cs:128-131 | the item of the j-th id, when known, sits right after the items of the ids before it, so the found items are in list order |
| NodeItems.NewNodeItems | Classes/Node.cs:125-133 | the slots hold, in order, the first nine ids the lookup resolves, the rest are empty, and the node is enlisted for exactly those items |
| NodeItems.HasItems | Classes/Node.cs:80-101 | true exactly when no names are given, or every given name is non-null and the English name of an item in some slot; a null name is never found |
| NodeItems.HasItemsOfEmptyNode | Classes/Node.cs:80-101 | on a node without items, `HasItems` answers true exactly for a null or empty list of names |
| NodeItems.NoItemsHoldsNothing | Classes/Node.cs:80-123 | on a node for which `NoItems` answers true, the condition `HasItems` tests fails for every non-empty list of names |
| NodeItems.NoItems | Classes/Node.cs:117-123 | true exactly when all nine slots are empty |
| NodeItems.AppendedExtends | Classes/Node.cs:72-74 | one filled slot keeps the text so far as a prefix, and adds a vertical bar before its text when that text is non-empty; an empty slot adds nothing |
| NodeItems.Rendered | Classes/Node.cs:67-77 | the text after the loop has visited the first i slots, one `Appended` step per slot |
| NodeItems.RenderedIsJoin | Classes/Node.cs:67-77 | after the first i slots, the text the loop has built is the texts of the filled ones among them, leading empty texts dropped, joined by a vertical bar |
| NodeItems.PrintItems | Classes/Node.cs:67-77 | the result is the texts of the filled slots in slot order, joined by a vertical bar, where leading items whose text is empty add nothing |
| NodeItems.PrintItemsOfNonEmptyTexts | Classes/Node.cs:67-77 | when no item text is empty, every filled slot appears, and the result is empty exactly when all slots are empty |
| SubNodes.NewSubNodes | Classes/Node.cs:138-142 | a new record has no sightings, mean (0, 0) and no aetheryte, and belongs to the given territory (the initialiser's null when `None`, or the one the caller assigns after construction) |
| SubNodes.Quot | Classes/Node.cs:157-158 | C# integer division truncates toward zero: the quotient's magnitude is at most the dividend's, and the remainder takes the dividend's sign and is smaller than the divisor |
| SubNodes.QuotBetween | Classes/Node.cs:157-158 | a dividend between lo*n and hi*n gives a truncated quotient between lo and hi |
| SubNodes.SumOfBetween | Classes/Node.cs:151-156 | when every known position lies in [lo, hi], the sum lies between lo and hi times the number of known positions |
| SubNodes.CountPositive | Classes/Node.cs:151-153 | the count of known positions is positive exactly when some sighting is non-null |
| SubNodes.MeanBetween | Classes/Node.cs:144-160 | the truncated mean lies within the bounds of the positions it averages |
| SubNodes.SamePositionSameSums | Classes/Node.cs:151-156 | replacing a sighting by one at the same position keeps both sums and the count |
| SubNodes.RecomputeAverage | Classes/Node.cs:144-160 | no sightings leaves the record as it is; otherwise it succeeds exactly when some sighting is non-null, setting each axis to the truncated mean of the non-null sightings; when all are null it fails with division by zero and leaves the mean reset to (0, 0) |
| SubNodes.ClosestIn | Classes/Node.cs:167 | the chosen aetheryte is one of the candidates, and no candidate is strictly closer |
| SubNodes.FindClosestAetheryte | Classes/Node.cs:162-168 | only the aetheryte field changes; it is absent exactly when there is no territory or the territory has no aetherytes; otherwise it is a minimal-distance aetheryte of the territory |
| SubNodes.FindClosestIdempotent | Classes/Node.cs:162-168 | recomputing the closest aetheryte a second time changes nothing |
| SubNodes.AddNodeLocation | Classes/Node.cs:170-186 | a rejected merge into a known sighting answers false and changes nothing; otherwise the merged or new sighting is stored and the mean recomputed, which divides by zero exactly when no sighting is non-null, and the closest aetheryte is re-derived from the new mean; after the division fails, the new entry stays stored, the mean is (0, 0) and the closest aetheryte keeps its old value |
| SubNodes.SameSightingKeepsAggregate | Classes/Node.cs:170-186 | re-sighting a known node at its stored position leaves the mean and the closest aetheryte unchanged |
| SubNodes.FirstSightingIsTheMean | Classes/Node.cs:182-183 | after the first non-null sighting, the mean is that position |
| SubNodes.NullFirstSightingDividesByZero | Classes/Node.cs:157 | a first sighting that is null leaves nothing to count, so the division fails |
| NodeTimes.FullMask | Classes/Node.cs:191-195 | a mask up at all 24 hours is exactly `allHours` |
| NodeTimes.HourRange | Classes/Node.cs:251-252 | the bits set for hours i0..e-1 are exactly their clock hours modulo 24 |
| NodeTimes.ConvertFromEphemeralTime | Classes/Node.cs:238-254 | equal times, or either time beyond 2400, give all hours; otherwise hour h is up exactly when it lies in the window [start/100, end/100) read modulo 24, so a window whose end is before its start wraps past midnight |
| NodeTimes.WindowWitness | Classes/Node.cs:245-252 | an hour of the wrapped window is hit by some step of the conversion loop |
| NodeTimes.DefaultTimes | Classes/Node.cs:256 | the default times are always up |
| NodeTimes.FromEphemeralTime | Classes/Node.cs:257-260 | the node is up at hour h exactly when h lies in the window |
| NodeTimes.SomeSlotCoversSnoc | Classes/Node.cs:270-277 | an hour is covered by a list of slots exactly when it is covered by the earlier slots or by the last one |
| NodeTimes.SlotEnd | Classes/Node.cs:274-275 | the end is below 2400; a duration of 160 is read as 200, and a sum that stays below 2400 is kept as it is |
| NodeTimes.TableHours | Classes/Node.cs:268-277 | hour h is set exactly when some slot of non-zero duration covers it, with a duration of 160 read as 200 and the end taken modulo 2400 |
| NodeTimes.FromRarePopTable | Classes/Node.cs:263-278 | a missing table leaves the mask zero; otherwise the node is up exactly at the hours some slot covers |
| NodeTimes.AlwaysUp | Classes/Node.cs:195 | true exactly when every hour 0..23 is up |
| NodeTimes.IsUp | Classes/Node.cs:196 | an up hour has a shift count, taken modulo 32, below 24 |
| NodeTimes.ShiftCountMasked | Classes/Node.cs:196 | the shift count is taken modulo 32, so hour h and h+32 agree and hour -1 is never up |
| NodeTimes.BinaryDigits | Classes/Node.cs:201 | `Convert.ToString(x, 2)` gives the most significant set bit first and the digits in reverse bit order |
| NodeTimes.PaddedDigits | Classes/Node.cs:201 | padding to 24 digits and reversing puts bit i at position i |
| NodeTimes.UptimeTable | Classes/Node.cs:199-202 | the table has 24 characters, and character i is '1' exactly when hour i is up |
| NodeTimes.RunStart | Classes/Node.cs:211-216 | `min` is the first hour of the run of up hours ending at the current hour |
| NodeTimes.ClosedRuns | Classes/Node.cs:209-233 | the runs the loop closes are runs of up hours bounded by down hours, and they are in increasing, disjoint order |
| NodeTimes.ClosedRunsComplete | Classes/Node.cs:209-233 | a run is closed by the loop exactly when it is a maximal run of up hours followed by a down hour |
| NodeTimes.PrintedEndIsMaxPlusOne | Classes/Node.cs:213-228 | the end printed for a run is one past the loop's `max`: the run's stop hour when it has two or more hours, and 0 for a one-hour run |
| NodeTimes.SegmentSpelled | Classes/Node.cs:228 | a segment is "HH:00 - HH:00 ET" with both hours as two zero-padded digits |
| NodeTimes.PrintedStep | Classes/Node.cs:218-231 | one down hour extends the text by the segment of the run it closes, after " and " when text already exists |
| NodeTimes.PrintHours | Classes/Node.cs:205-235 | the text is the segments of the closed runs joined by " and ", where a segment prints `max + 1` as the end |
| NodeTimes.AlwaysUpPrintsNothing | Classes/Node.cs:205-235 | a node that is always up prints the empty string, since no down hour closes a run |
| NodeTimes.DegenerateWindowsAlwaysUp | Classes/Node.cs:240-242 | an empty window, or either time beyond 2400, means always up |
| NodeTimes.SameHourWindowNeverUp | Classes/Node.cs:245-252 | different times within the same hour give a node that is never up |
| NodeTimes.WrapAroundWindow | Classes/Node.cs:248-252 | the window 22:00 to 02:00 is up at hours 22, 23, 0 and 1 only |
| NodeTimes.NineToFive | Classes/Node.cs:205-254 | 09:00 to 17:00 is up at hours 9..16 and prints "09:00 - 17:00 ET" |
| NodeTimes.OneHourWindowPrintsMidnight | Classes/Node.cs:213-228 | a one-hour run never sets `max`, so the window 05:00 to 06:00 prints "05:00 - 00:00 ET" |
| NodeTimes.IntendedOneHourWindow | Classes/Node.cs:213-228 | the corrected rendering prints the window 05:00 to 06:00 as "05:00 - 06:00 ET" |
| NodeTimes.WrapAroundDropsLateRun | Classes/Node.cs:209-233 | hour 22 is up, yet no printed run contains it, and the wrap-around window prints only "00:00 - 02:00 ET" |
| NodeTimes.IntendedWrapAround | Classes/Node.cs:209-233 | the corrected rendering prints both runs of the wrap-around window |
| NodeTimes.IntendedRunsCoverUpHours | Classes/Node.cs:209-233 | in the corrected rendering, every up hour of a node that is sometimes down lies in a printed run |
| NodeTimes.IntendedRunsAreMaximal | Classes/Node.cs:209-233 | every run of the corrected rendering is non-empty, entirely up, and bounded by a down hour or the end of the day on both sides |
| NodeTimes.TwoHourSlot | Classes/Node.cs:274-276 | a slot of duration 200 starting on hour s covers hours s and s+1 |
| NodeTimes.ThreeSlotsHours | Classes/Node.cs:263-278 | three two-hour slots give exactly the union of their hours |
| NodeTimes.ThreeRunsJoinedWithAnd | Classes/Node.cs:223-227 | the discarded `Replace` leaves three runs joined as "A and B and C" |
| NodeTimes.IntendedThreeRuns | Classes/Node.cs:223-227 | the corrected rendering joins three runs as "A, B and C" |
| Node.OverrideWins | Classes/Node.cs:294-304 | when the override does not win, there is an aggregate and its mean on that axis is non-zero |
| Node.Coordinate | Classes/Node.cs:290-309 | a winning override gives the manual coordinate over 100; a losing one gives the mean over 100; with no override the raw mean, or 0 without sightings |
| Node.GetX | Classes/Node.cs:290-299 | a preferred override, or any override when there are no sightings or the mean x is 0, gives xCoord/100; a non-preferred override loses to a non-zero mean x, which is divided by 100; with no override the mean x is returned unscaled, or 0 |
| Node.GetY | Classes/Node.cs:300-309 | the same precedence as GetX on the y axis |
| Node.AxesIndependent | Classes/Node.cs:290-309 | changing the y inputs leaves GetX unchanged, and changing the x inputs leaves GetY unchanged |
| Node.OverridePrecedence | Classes/Node.cs:292-297 | the override wins exactly when it is preferred or the mean on that axis is zero |
| Node.PrecedenceExamples | Classes/Node.cs:290-299 | the four combinations of prefer and a zero or non-zero mean give 5.0, 9.0, 5.0 and 5.0 |
| Node.UnscaledWithoutOverride | Classes/Node.cs:298 | the same mean of 900 reads 9.0 beside a losing override and 900.0 with no override |
| Node.ScaledCoordinate | Classes/Node.cs:294-298 | the corrected coordinate divides the mean by 100 on both paths |
| Node.ScaledIgnoresLosingOverride | Classes/Node.cs:294-298 | in the corrected coordinate, a losing override gives the same value as no override, which is the mean over 100 |
| Node.GetValidAetheryte | Classes/Node.cs:311-320 | a preferred override, or one without a sighted aetheryte, gives the manual aetheryte; otherwise the sighted one |
| Node.ValidAetheryteMissing | Classes/Node.cs:311-320 | without a preferred override, no aetheryte is found exactly when there is none sighted and none given by an override |
| Node.GetClosestAetheryte | Classes/Node.cs:321-327 | a valid aetheryte is returned as it is; otherwise the first aetheryte of the territory, none for an empty list, and a null dereference when sightings or territory are missing |
| Node.ClosestAetheryteFound | Classes/Node.cs:321-327 | with a territory that has aetherytes, some aetheryte is always returned: the override's, the sighted one, or the first of the territory |
| Node.AsObject | Classes/Node.cs:329-332 | a node passed as an object is null only when absent, and never a `NodeMeta` |
| Node.CompareTo | Classes/Node.cs:329-332 | a node without metadata throws; otherwise it answers as its `NodeMeta` does for the same argument: 1 for null, a null dereference for a non-`NodeMeta`, and for a `NodeMeta` the id difference modulo 2^32, whose sign is the id order when the difference fits in 32 bits |
| Node.CompareNodeWithNodeThrows | Classes/Node.cs:329-332 | comparing a node with another node throws a null dereference |
| Node.CompareNodes | Classes/Node.cs:329-332 | the corrected comparison compares the two nodes' metadata; an argument that is missing or has no metadata compares below (1), while a receiver without metadata still throws, as `meta.CompareTo` does at :331 |
| Node.CompareNodesOrders | Classes/Node.cs:329-332 | for non-negative row ids, the corrected comparison never throws, orders nodes by row id and is antisymmetric |
| Node.AddItem | Classes/Node.cs:334-338 | missing items throw; a full node logs and changes nothing, and logging reads the metadata, so a full node without metadata throws; otherwise the item goes in the first free slot |
| Node.TenthItemLogged | Classes/Node.cs:334-338 | a tenth item is refused and logged, and the node and lists are unchanged |

## Left out

- Reading game data: the Lumina rows (`GatheringPointBase`, `GatheringRarePopTimeTable`) become the values the code reads from them, such as the row id, level, type code and time slots.
- `NodeLocation.AddLocation` and `Aetheryte.WorldDistance` are not part of this model. They are the parameters `merge` and `dist`.
- `ItemManager.gatheringToItem` is not part of this model. It is the `lookup` map.
- `Gatherable.ToString` and `nameList[English]` are stored fields of `Gatherable`.
- Logging: `Log.Error` in `AddItem` is reduced to a `logged` flag. The formatted message is not modelled, but its read of `meta.pointBaseId` is.
- Floating point: `double` results are exact `real`s, so rounding in `/ 100.0` is not modelled.
- A null `itemIdList` given to the `NodeItems` constructor and a null `item` given to `AddItem` are not modelled: the list and the item are always present in the model.
- Concurrency: the code has no synchronisation, and the model is sequential.
- `Node.times` and `Node.placeNameEN` are carried as fields; no node operation reads them.
- SubNodes.RecomputeAverage: sums are unbounded integers, so a 32-bit overflow of `averageX += p.averageX` across many large positions is not modelled.
- SubNodes.FindClosestAetheryte: states that the result is one of the nearest aetherytes, not which one `Min()` picks among equally near ones. That choice depends on the tuple comparison of `Aetheryte`, which is not part of this model.
- Node.CompareNodes: corrects only how the argument is passed. A receiver without metadata still throws a null dereference, as `meta.CompareTo(obj)` does, so the comparison is not antisymmetric once a node without metadata is involved.
- Node.CompareNodesOrders: requires non-negative row ids, because the corrected comparison still subtracts the ids with wrap-around, so ids exactly 2^31 apart (-2^31 and 0) each compare below the other, as `NodeMeta.CompareNotAntisymmetric` shows.
- NodeItems.HasItems: item English names are taken to be non-null. C#'s string `==` is true for two nulls, so a null name would match an item whose English name is null; the model's names cannot be null, and a null name is never found.
- NodeMeta.CompareAntisymmetric: requires non-negative row ids, because the unchecked subtraction breaks antisymmetry when two ids differ by exactly 2^31 (see `NodeMeta.CompareNotAntisymmetric`: ids -2^31 and 0 each compare below the other).

In these places the code's behaviour is easy to misread; the model follows the code as written:

- The wrap-around test is a strict `end < start`.
- `NodeMeta.CompareTo` throws on an argument that is not a `NodeMeta`, rather than ranking it.
- `PrintHours` joins every run with " and ", because the `Replace` result is discarded. It also drops a run still open at hour 23.
- `GetClosestAetheryte` throws when the sightings or the territory are missing and no override supplies an aetheryte.
- `HasItems` requires every given name, not any one of them, although its comment says "any".

## Findings

| source | as written | input that shows it | evidently intended | confidence | as-written member | corrected member |
|---|---|---|---|---|---|---|
| Classes/Node.cs:213-228 | `max` is set only from the second up hour of a run, so a one-hour run prints `max + 1 = 0` as its end | the window 05:00 to 06:00 prints "05:00 - 00:00 ET" | each run prints its own last hour plus one: "05:00 - 06:00 ET" | high, not executed | NodeTimes.OneHourWindowPrintsMidnight | NodeTimes.IntendedRunsAreMaximal |
| Classes/Node.cs:225 | `ret.Replace(" and ", ", ")` returns a new string that is discarded | three two-hour rare-pop slots at 01:00, 05:00 and 09:00 print "01:00 - 03:00 ET and 05:00 - 07:00 ET and 09:00 - 11:00 ET" | earlier separators become ", ": "01:00 - 03:00 ET, 05:00 - 07:00 ET and 09:00 - 11:00 ET" | high, not executed | NodeTimes.ThreeRunsJoinedWithAnd | NodeTimes.IntendedThreeRuns |
| Classes/Node.cs:209-233 | a run is printed only when a later down hour closes it, so a run still up at hour 23 is never printed | the window 22:00 to 02:00 prints "00:00 - 02:00 ET" | every up hour appears: "00:00 - 02:00 ET and 22:00 - 24:00 ET" | high, not executed | NodeTimes.WrapAroundDropsLateRun | NodeTimes.IntendedRunsCoverUpHours |
| Classes/Node.cs:329-332 | `Node.CompareTo` passes its argument on unchanged, and `obj as NodeMeta` is null for a `Node`, so `rhs.pointBaseId` throws | comparing any classified node with another node, as sorting a list of nodes does | compare the two nodes' metadata by row id (the corrected comparison is proved to order and be antisymmetric for non-negative row ids) | medium, not executed | Node.CompareNodeWithNodeThrows | Node.CompareNodesOrders |
| Classes/Node.cs:298 | without a manual override, `GetX` returns the raw mean `averageX`, while every other path divides by 100 (likewise `GetY` at line 308) | sightings with mean x 900 give 900.0 without an override but 9.0 beside a losing override | the mean is divided by 100 on every path: 9.0 | medium, not executed | Node.UnscaledWithoutOverride | Node.ScaledIgnoresLosingOverride |

=== FILE: node.dfy ===
/**
  A gathering node (`Node` in Classes/Node.cs): its classification, its
  sighting aggregate, a hand-set position that may override the aggregate,
  its item slots and its hours. Every part is a reference that may be null.
  The operations resolve the node's coordinates and aetheryte, choosing
  between the override and the aggregate, order nodes, and add items.
*/
module Node {
  import opened Wrappers
  import NodeMeta
  import NodeItems
  import SubNodes
  import NodeTimes

  /** `InitialNodePosition`: a hand-set aetheryte and position (in
      hundredths), and whether it is preferred over the aggregate. */
  datatype InitialNodePosition = InitialNodePosition(
    closestAetheryte: Option<SubNodes.Aetheryte>, xCoord: int, yCoord: int, prefer: bool)

  datatype Node = Node(
    meta: Option<NodeMeta.NodeMeta>,
    nodes: Option<SubNodes.SubNodes>,
    initialPos: Option<InitialNodePosition>,
    items: Option<NodeItems.Slots>,
    times: Option<NodeTimes.NodeTimes>,
    placeNameEN: Option<string>)

  // ---------------------------------------------------------------------
  // Coordinates

  datatype Axis = XAxis | YAxis

  /** The override's coordinate on an axis, in hundredths. */
  function Manual(p: InitialNodePosition, axis: Axis): int
  {
    match axis
    case XAxis => p.xCoord
    case YAxis => p.yCoord
  }

  /** The aggregate's mean on an axis, in hundredths. */
  function Average(s: SubNodes.SubNodes, axis: Axis): int
  {
    match axis
    case XAxis => s.averageX
    case YAxis => s.averageY
  }

  /** The override decides an axis when it is preferred, when there is no
      aggregate, or when the aggregate's mean on that axis is 0, which the
      source reads as "not computed yet". */
  predicate OverrideWins(p: InitialNodePosition, nodes: Option<SubNodes.SubNodes>, axis: Axis)
    ensures !OverrideWins(p, nodes, axis) ==> nodes.Some? && Average(nodes.value, axis) != 0
  {
    p.prefer || nodes.None? || Average(nodes.value, axis) == 0
  }

  /** `GetX()` and `GetY()` on the given axis, as written: with an override,
      the winner's value divided by 100; without one, the aggregate's mean
      as it is, or 0 without an aggregate. */
  function Coordinate(n: Node, axis: Axis): (r: real)
    ensures n.initialPos.Some? && OverrideWins(n.initialPos.value, n.nodes, axis) ==>
              r == Manual(n.initialPos.value, axis) as real / 100.0
    ensures n.initialPos.Some? && !OverrideWins(n.initialPos.value, n.nodes, axis) ==>
              r == Average(n.nodes.value, axis) as real / 100.0 && r != 0.0
    ensures n.initialPos.None? && n.nodes.Some? ==> r == Average(n.nodes.value, axis) as real
    ensures n.initialPos.None? && n.nodes.None? ==> r == 0.0
  {
    match n.initialPos
    case Some(p) =>
      if OverrideWins(p, n.nodes, axis) then Manual(p, axis) as real / 100.0
      else Average(n.nodes.value, axis) as real / 100.0
    case None =>
      if n.nodes.Some? then Average(n.nodes.value, axis) as real else 0.0
  }

  /** `GetX()`. */
  function GetX(n: Node): (r: real)
    ensures n.initialPos.Some? && n.initialPos.value.prefer ==> r == n.initialPos.value.xCoord as real / 100.0
    ensures n.initialPos.Some? && (n.nodes.None? || n.nodes.value.averageX == 0) ==>
              r == n.initialPos.value.xCoord as real / 100.0
    ensures n.initialPos.Some? && n.nodes.Some? && n.nodes.value.averageX != 0 && !n.initialPos.value.prefer ==>
              r == n.nodes.value.averageX as real / 100.0
    ensures n.initialPos.None? ==> r == (if n.nodes.Some? then n.nodes.value.averageX as real else 0.0)
  {
    Coordinate(n, XAxis)
  }

  /** `GetY()`. */
  function GetY(n: Node): (r: real)
    ensures n.initialPos.Some? && n.initialPos.value.prefer ==> r == n.initialPos.value.yCoord as real / 100.0
    ensures n.initialPos.Some? && (n.nodes.None? || n.nodes.value.averageY == 0) ==>
              r == n.initialPos.value.yCoord as real / 100.0
    ensures n.initialPos.Some? && n.nodes.Some? && n.nodes.value.averageY != 0 && !n.initialPos.value.prefer ==>
              r == n.nodes.value.averageY as real / 100.0
    ensures n.initialPos.None? ==> r == (if n.nodes.Some? then n.nodes.value.averageY as real else 0.0)
  {
    Coordinate(n, YAxis)
  }

  /** Each axis is decided on its own: an aggregate whose mean is 0 on one
      axis only lets the override win on that axis, and nothing on one axis
      changes the other. */
  lemma AxesIndependent(n: Node, p: InitialNodePosition, s: SubNodes.SubNodes,
                        xCoord: int, averageX: int, yCoord: int, averageY: int)
    requires n.initialPos == Some(p) && n.nodes == Some(s)
    ensures GetX(n.(initialPos := Some(p.(yCoord := yCoord)), nodes := Some(s.(averageY := averageY)))) == GetX(n)
    ensures GetY(n.(initialPos := Some(p.(xCoord := xCoord)), nodes := Some(s.(averageX := averageX)))) == GetY(n)
  {
  }

  /** With an override and an aggregate, the coordinate is the override's
      exactly when the override is preferred or the aggregate's mean is 0;
      otherwise it is the aggregate's, and the two readings use the same
      unit. */
  lemma OverridePrecedence(n: Node, axis: Axis)
    requires n.initialPos.Some? && n.nodes.Some?
    ensures var p := n.initialPos.value;
            var a := Average(n.nodes.value, axis);
            Coordinate(n, axis) ==
              if p.prefer || a == 0 then Manual(p, axis) as real / 100.0 else a as real / 100.0
  {
  }

  /** The four combinations of preference and aggregate for an override at
      x = 500 and an aggregate mean of 900 or 0. */
  lemma PrecedenceExamples(s: SubNodes.SubNodes)
    requires s.averageX == 900
    ensures GetX(Node(None, Some(s), Some(InitialNodePosition(None, 500, 0, true)), None, None, None)) == 5.0
    ensures GetX(Node(None, Some(s), Some(InitialNodePosition(None, 500, 0, false)), None, None, None)) == 9.0
    ensures GetX(Node(None, Some(s.(averageX := 0)), Some(InitialNodePosition(None, 500, 0, true)), None, None, None)) == 5.0
    ensures GetX(Node(None, Some(s.(averageX := 0)), Some(InitialNodePosition(None, 500, 0, false)), None, None, None)) == 5.0
  {
  }

  /** As written, an aggregate whose mean x is 900 reads as 9.0 beside an
      override that does not win, but as 900.0 when the node has no
      override at all. */
  lemma UnscaledWithoutOverride(s: SubNodes.SubNodes)
    requires s.averageX == 900
    ensures GetX(Node(None, Some(s), Some(InitialNodePosition(None, 500, 0, false)), None, None, None)) == 9.0
    ensures GetX(Node(None, Some(s), None, None, None, None)) == 900.0
  {
  }

  /** The coordinate read in one unit throughout: without an override the
      aggregate's mean is divided by 100 as it is in the other branch. */
  function ScaledCoordinate(n: Node, axis: Axis): (r: real)
    ensures n.initialPos.Some? && OverrideWins(n.initialPos.value, n.nodes, axis) ==>
              r == Manual(n.initialPos.value, axis) as real / 100.0
    ensures !(n.initialPos.Some? && OverrideWins(n.initialPos.value, n.nodes, axis)) ==>
              r == (if n.nodes.Some? then Average(n.nodes.value, axis) as real / 100.0 else 0.0)
  {
    match n.initialPos
    case Some(p) =>
      if OverrideWins(p, n.nodes, axis) then Manual(p, axis) as real / 100.0
      else Average(n.nodes.value, axis) as real / 100.0
    case None =>
      if n.nodes.Some? then Average(n.nodes.value, axis) as real / 100.0 else 0.0
  }

  /** An override that does not win has no effect on the scaled
      coordinate: removing it gives the same reading, and the reading
      differs from the as-written one only in the missing division. */
  lemma ScaledIgnoresLosingOverride(n: Node, axis: Axis)
    requires n.initialPos.Some? && !OverrideWins(n.initialPos.value, n.nodes, axis)
    ensures ScaledCoordinate(n, axis) == ScaledCoordinate(n.(initialPos := None), axis)
    ensures ScaledCoordinate(n.(initialPos := None), axis) * 100.0 == Coordinate(n.(initialPos := None), axis)
  {
  }

  // ---------------------------------------------------------------------
  // Aetherytes

  /** The aggregate's closest aetheryte, if there is an aggregate. */
  function AggregateAetheryte(n: Node): Option<SubNodes.Aetheryte>
  {
    if n.nodes.Some? then n.nodes.value.closestAetheryte else None
  }

  /** `GetValidAetheryte()`: the override's aetheryte when it is preferred or
      the aggregate offers none; otherwise, and without an override, the
      aggregate's. */
  function GetValidAetheryte(n: Node): (r: Option<SubNodes.Aetheryte>)
    ensures n.initialPos.Some? && n.initialPos.value.prefer ==> r == n.initialPos.value.closestAetheryte
    ensures n.initialPos.Some? && AggregateAetheryte(n).None? ==> r == n.initialPos.value.closestAetheryte
    ensures n.initialPos.Some? && !n.initialPos.value.prefer && AggregateAetheryte(n).Some? ==>
              r == AggregateAetheryte(n)
    ensures n.initialPos.None? ==> r == AggregateAetheryte(n)
  {
    match n.initialPos
    case Some(p) =>
      if p.prefer || n.nodes.None? || n.nodes.value.closestAetheryte.None? then p.closestAetheryte
      else n.nodes.value.closestAetheryte
    case None =>
      if n.nodes.Some? then n.nodes.value.closestAetheryte else None
  }

  /** Unless a preferred override decides, the valid aetheryte is missing
      exactly when neither the override nor the aggregate has one. */
  lemma ValidAetheryteMissing(n: Node)
    requires !(n.initialPos.Some? && n.initialPos.value.prefer)
    ensures GetValidAetheryte(n).None? <==>
              AggregateAetheryte(n).None? &&
              (n.initialPos.None? || n.initialPos.value.closestAetheryte.None?)
  {
  }

  /** `GetClosestAetheryte()`: the valid aetheryte, or else the first
      aetheryte of the aggregate's territory. Reaching that territory
      through a null aggregate or a null territory throws; an empty list
      gives null. */
  function GetClosestAetheryte(n: Node): (r: Result<Option<SubNodes.Aetheryte>>)
    ensures GetValidAetheryte(n).Some? ==> r == Success(GetValidAetheryte(n))
    ensures GetValidAetheryte(n).None? ==>
              (r.Failure? <==> n.nodes.None? || n.nodes.value.territory.None?)
    ensures r.Failure? ==> r.error == NullDereference
    ensures GetValidAetheryte(n).None? && r.Success? ==>
              var list := n.nodes.value.territory.value.aetherytes;
              (r.value.Some? <==> |list| > 0) && (r.value.Some? ==> r.value.value == list[0])
  {
    var ret := GetValidAetheryte(n);
    if ret.Some? then Success(ret)
    else if n.nodes.None? || n.nodes.value.territory.None? then Failure(NullDereference)
    else
      var list := n.nodes.value.territory.value.aetherytes;
      if |list| > 0 then Success(Some(list[0])) else Success(None)
  }

  /** An aggregate whose territory has aetherytes always yields one, and it
      is one of the override's, the aggregate's or the territory's. */
  lemma ClosestAetheryteFound(n: Node)
    requires n.nodes.Some? && n.nodes.value.territory.Some?
    requires |n.nodes.value.territory.value.aetherytes| > 0
    ensures GetClosestAetheryte(n).Success? && GetClosestAetheryte(n).value.Some?
    ensures var a := GetClosestAetheryte(n).value.value;
            (n.initialPos.Some? && Some(a) == n.initialPos.value.closestAetheryte) ||
            Some(a) == AggregateAetheryte(n) ||
            a == n.nodes.value.territory.value.aetherytes[0]
  {
  }

  // ---------------------------------------------------------------------
  // Ordering

  /** A node passed where `object` is expected: it is not a `NodeMeta`. */
  function AsObject(other: Option<Node>): (c: NodeMeta.Comparand)
    ensures other.None? <==> c.Null?
    ensures !c.Meta?
  {
    if other.None? then NodeMeta.Null else NodeMeta.NotMeta
  }

  /** `CompareTo(obj)`: delegates to the node's classification, which must
      not be null. */
  function CompareTo(n: Node, obj: NodeMeta.Comparand): (r: Result<NodeMeta.Int32>)
    ensures n.meta.None? ==> r == Failure(NullDereference)
    ensures n.meta.Some? && obj.Null? ==> r == Success(1)
    ensures n.meta.Some? && obj.NotMeta? ==> r == Failure(NullDereference)
    ensures n.meta.Some? && obj.Meta? ==>
              r.Success? && (r.value - (n.meta.value.pointBaseId - obj.meta.pointBaseId)) % 0x1_0000_0000 == 0
    ensures n.meta.Some? && obj.Meta? &&
            -0x8000_0000 <= n.meta.value.pointBaseId - obj.meta.pointBaseId < 0x8000_0000 ==>
              r.Success? && (r.value < 0 <==> n.meta.value.pointBaseId < obj.meta.pointBaseId)
  {
    match n.meta
    case None => Failure(NullDereference)
    case Some(m) => NodeMeta.CompareTo(m, obj)
  }

  /** As written, comparing a node with another node always throws: the
      other node is cast to `NodeMeta`, which gives null, and then
      dereferenced. */
  lemma CompareNodeWithNodeThrows(a: Node, b: Node)
    ensures CompareTo(a, AsObject(Some(b))) == Failure(NullDereference)
  {
  }

  /** Nodes compared through their classifications, as the delegation
      evidently intends: an argument that is null or has no
      classification compares as null does (below the receiver). Only the
      argument is corrected: a receiver without classification still
      throws, as the delegation does. */
  function CompareNodes(a: Node, b: Option<Node>): (r: Result<NodeMeta.Int32>)
    ensures a.meta.None? ==> r == Failure(NullDereference)
    ensures a.meta.Some? && (b.None? || b.value.meta.None?) ==> r == Success(1)
    ensures a.meta.Some? && b.Some? && b.value.meta.Some? ==> r.Success?
  {
    var other := if b.Some? && b.value.meta.Some? then NodeMeta.Meta(b.value.meta.value) else NodeMeta.Null;
    CompareTo(a, other)
  }

  /** Compared with `CompareNodes`, two classified nodes never throw and,
      for non-negative row ids, order by row id, antisymmetrically. */
  lemma CompareNodesOrders(a: Node, b: Node)
    requires a.meta.Some? && b.meta.Some?
    requires a.meta.value.pointBaseId >= 0 && b.meta.value.pointBaseId >= 0
    ensures CompareNodes(a, Some(b)).Success? && CompareNodes(b, Some(a)).Success?
    ensures CompareNodes(a, Some(b)).value < 0 <==> a.meta.value.pointBaseId < b.meta.value.pointBaseId
    ensures CompareNodes(a, Some(b)).value < 0 <==> CompareNodes(b, Some(a)).value > 0
    ensures CompareNodes(a, Some(b)).value == 0 <==> a.meta.value.pointBaseId == b.meta.value.pointBaseId
  {
    NodeMeta.CompareOrdersByRowId(a.meta.value, b.meta.value);
    NodeMeta.CompareOrdersByRowId(b.meta.value, a.meta.value);
  }

  // ---------------------------------------------------------------------
  // Items

  /** The outcome of `AddItem`: the node and node lists afterwards, and
      whether the "all 9 slots are used" error was logged. */
  datatype AddOutcome = AddOutcome(node: Node, registry: NodeItems.Registry, logged: bool)

  /** `AddItem(item)`: the item goes into the node's first free slot; with
      all nine slots taken nothing changes and an error naming the node's
      row id is logged. A null slot set throws, and so does logging for a
      node without classification. */
  function AddItem(n: Node, self: NodeItems.NodeRef, reg: NodeItems.Registry, item: NodeItems.Gatherable)
    : (r: Result<AddOutcome>)
    ensures n.items.None? ==> r == Failure(NullDereference)
    ensures n.items.Some? ==>
              var full := forall i :: 0 <= i < NodeItems.Capacity ==> n.items.value[i].Some?;
              (r.Failure? <==> full && n.meta.None?) &&
              (r.Success? ==> r.value.logged == full) &&
              (r.Success? && full ==> r.value.node == n && r.value.registry == reg)
    ensures r.Success? && !r.value.logged ==>
              var ins := NodeItems.SetFirstNullItem(n.items.value, reg, self, item);
              ins.added && r.value.node == n.(items := Some(ins.slots)) && r.value.registry == ins.registry
  {
    match n.items
    case None => Failure(NullDereference)
    case Some(slots) =>
      var ins := NodeItems.SetFirstNullItem(slots, reg, self, item);
      if ins.added then Success(AddOutcome(n.(items := Some(ins.slots)), ins.registry, false))
      else if n.meta.None? then Failure(NullDereference)
      else Success(AddOutcome(n, reg, true))
  }

  /** Ten items added to a node with empty slots: the first nine are placed
      without a log, the tenth is logged and changes nothing. */
  lemma TenthItemLogged(n: Node, self: NodeItems.NodeRef, reg: NodeItems.Registry, items: seq<NodeItems.Gatherable>)
    requires |items| == 10
    requires n.items == Some(NodeItems.Layout(items[..9])) && n.meta.Some?
    ensures AddItem(n, self, reg, items[9]) == Success(AddOutcome(n, reg, true))
  {
    NodeItems.InsertIntoLayout(items[..9], reg, self, items[9]);
  }
}

=== FILE: node_items.dfy ===
/**
  The item slots of a gathering node (`NodeItems` in Classes/Node.cs): nine
  slots, each empty (null) or holding a gatherable item, filled front to
  back. Every item keeps a list of the nodes it is found at (its
  `NodeList`); placing an item in a node's slot appends the node to that
  list. The list lives on the item, outside this class, so the model threads
  it through as a `Registry` from item id to node list.
*/
module NodeItems {
  import opened Wrappers
  import opened Text

  /** The number of slots: eight regular items plus one spare for
      overlapping hidden items. */
  const Capacity: nat := 9

  /** The parts of an item this class reads: its id, its English name and
      the text of its `ToString()`. */
  datatype Gatherable = Gatherable(itemId: int, englishName: string, text: string)

  type Slots = s: seq<Option<Gatherable>> | |s| == Capacity
    witness [None, None, None, None, None, None, None, None, None]

  /** The identity of a node object. */
  type NodeRef = nat

  /** Each item's `NodeList`, by item id. */
  type Registry = map<int, seq<NodeRef>>

  /** Nine empty slots, as the constructor allocates them. */
  const EmptySlots: Slots := [None, None, None, None, None, None, None, None, None]

  /** The `NodeList` of the item with id `itemId`. */
  function NodeList(reg: Registry, itemId: int): seq<NodeRef>
  {
    if itemId in reg then reg[itemId] else []
  }

  /** `item.NodeList.Add(node)`. */
  function Enlist(reg: Registry, item: Gatherable, node: NodeRef): (r: Registry)
    ensures NodeList(r, item.itemId) == NodeList(reg, item.itemId) + [node]
    ensures forall id :: id != item.itemId ==> NodeList(r, id) == NodeList(reg, id)
  {
    reg[item.itemId := NodeList(reg, item.itemId) + [node]]
  }

  // ---------------------------------------------------------------------
  // Insertion

  /** The index of the first empty slot, if any. */
  function FirstNull(slots: seq<Option<Gatherable>>): (k: Option<nat>)
    ensures k.None? <==> forall i :: 0 <= i < |slots| ==> slots[i].Some?
    ensures k.Some? ==> k.value < |slots| && slots[k.value].None?
    ensures k.Some? ==> forall i :: 0 <= i < k.value ==> slots[i].Some?
    decreases |slots|
  {
    if |slots| == 0 then None
    else if slots[0].None? then Some(0)
    else
      match FirstNull(slots[1..])
      case None =>
        assert forall i :: 1 <= i < |slots| ==> slots[i] == slots[1..][i - 1];
        None
      case Some(k) =>
        assert forall i :: 1 <= i < k + 1 ==> slots[i] == slots[1..][i - 1];
        Some(k + 1)
  }

  /** The outcome of an insertion: whether it placed the item, and the
      slots and node lists afterwards. */
  datatype Insertion = Insertion(added: bool, slots: Slots, registry: Registry)

  /** `SetFirstNullItem(node, item)`: the item goes into the lowest empty
      slot and the node joins the item's node list; with every slot taken
      nothing changes and the answer is false. An item already in a slot is
      placed again. */
  function SetFirstNullItem(slots: Slots, reg: Registry, node: NodeRef, item: Gatherable): (r: Insertion)
    ensures r.added <==> exists i :: 0 <= i < Capacity && slots[i].None?
    ensures !r.added ==> r.slots == slots && r.registry == reg
    ensures r.added ==>
              exists k :: (0 <= k < Capacity && slots[k].None? && r.slots[k] == Some(item) &&
                           (forall i :: 0 <= i < k ==> slots[i].Some?) &&
                           (forall i :: 0 <= i < Capacity && i != k ==> r.slots[i] == slots[i]))
    ensures r.added ==> NodeList(r.registry, item.itemId) == NodeList(reg, item.itemId) + [node]
    ensures forall id :: id != item.itemId ==> NodeList(r.registry, id) == NodeList(reg, id)
  {
    match FirstNull(slots)
    case None => Insertion(false, slots, reg)
    case Some(k) => Insertion(true, slots[k := Some(item)], Enlist(reg, item, node))
  }

  /** The slots holding `items` in order from slot 0, the rest empty. */
  function Layout(items: seq<Gatherable>): (s: Slots)
    requires |items| <= Capacity
    ensures forall i :: 0 <= i < |items| ==> s[i] == Some(items[i])
    ensures forall i :: |items| <= i < Capacity ==> s[i].None?
  {
    seq(Capacity, i requires 0 <= i < Capacity => if i < |items| then Some(items[i]) else None)
  }

  /** The node lists after `node` has been appended for each of `items`. */
  function EnlistAll(reg: Registry, items: seq<Gatherable>, node: NodeRef): Registry
    decreases |items|
  {
    if |items| == 0 then reg
    else Enlist(EnlistAll(reg, items[..|items| - 1], node), items[|items| - 1], node)
  }

  /** Insert `items` one after another, collecting each answer. */
  function InsertAll(slots: Slots, reg: Registry, node: NodeRef, items: seq<Gatherable>): (r: (Slots, Registry, seq<bool>))
    ensures |r.2| == |items|
    decreases |items|
  {
    if |items| == 0 then (slots, reg, [])
    else
      var (s, g, oks) := InsertAll(slots, reg, node, items[..|items| - 1]);
      var ins := SetFirstNullItem(s, g, node, items[|items| - 1]);
      (ins.slots, ins.registry, oks + [ins.added])
  }

  /** One more item is inserted after all the earlier ones. */
  lemma InsertAllSnoc(slots: Slots, reg: Registry, node: NodeRef, items: seq<Gatherable>, x: Gatherable)
    ensures var p := InsertAll(slots, reg, node, items);
            var ins := SetFirstNullItem(p.0, p.1, node, x);
            InsertAll(slots, reg, node, items + [x]) == (ins.slots, ins.registry, p.2 + [ins.added])
  {
    assert (items + [x])[..|items|] == items;
  }

  /** One more item on a partly filled layout goes right after the others;
      on a full one it is refused. */
  lemma InsertIntoLayout(items: seq<Gatherable>, reg: Registry, node: NodeRef, item: Gatherable)
    requires |items| <= Capacity
    ensures |items| < Capacity ==>
              SetFirstNullItem(Layout(items), reg, node, item) ==
              Insertion(true, Layout(items + [item]), Enlist(reg, item, node))
    ensures |items| == Capacity ==>
              SetFirstNullItem(Layout(items), reg, node, item) == Insertion(false, Layout(items), reg)
  {
    var s := Layout(items);
    if |items| < Capacity {
      assert s[|items|].None?;
      var k := FirstNull(s).value;
      assert k == |items|;
      assert s[k := Some(item)] == Layout(items + [item]);
    }
  }

  /** The first `Capacity` elements of `xs`, or all of them if fewer. */
  function FirstNine<T>(xs: seq<T>): (p: seq<T>)
    ensures |p| <= Capacity && |p| <= |xs| && p == xs[..|p|]
    ensures |p| == Capacity || p == xs
  {
    if |xs| < Capacity then xs else xs[..Capacity]
  }

  lemma FirstNineSnoc<T>(xs: seq<T>, x: T)
    ensures |xs| < Capacity ==> FirstNine(xs + [x]) == FirstNine(xs) + [x]
    ensures |xs| >= Capacity ==> FirstNine(xs + [x]) == FirstNine(xs)
  {
    if |xs| >= Capacity {
      assert (xs + [x])[..Capacity] == xs[..Capacity];
    }
  }

  /** Inserting into empty slots fills slots 0 to 8 in insertion order; the
      first nine insertions succeed and every later one fails without
      changing anything. Each successful insertion records the node on its
      item. */
  lemma {:induction false} InsertAllFillsInOrder(reg: Registry, node: NodeRef, items: seq<Gatherable>)
    ensures InsertAll(EmptySlots, reg, node, items).0 == Layout(FirstNine(items))
    ensures InsertAll(EmptySlots, reg, node, items).1 == EnlistAll(reg, FirstNine(items), node)
    ensures forall i :: 0 <= i < |items| ==> (InsertAll(EmptySlots, reg, node, items).2[i] <==> i < Capacity)
    decreases |items|
  {
    if |items| == 0 {
      assert Layout([]) == EmptySlots;
    } else {
      var init := items[..|items| - 1];
      var last := items[|items| - 1];
      assert items == init + [last];
      InsertAllFillsInOrder(reg, node, init);
      InsertAllSnoc(EmptySlots, reg, node, init, last);
      var p := InsertAll(EmptySlots, reg, node, init);
      InsertIntoLayout(FirstNine(init), p.1, node, last);
      FirstNineSnoc(init, last);
      if |init| < Capacity {
        EnlistAllSnoc(reg, FirstNine(init), last, node);
      }
      var oks := InsertAll(EmptySlots, reg, node, items).2;
      assert oks == p.2 + [|init| < Capacity];
      assert forall i :: 0 <= i < |init| ==> oks[i] == p.2[i];
    }
  }

  /** Enlisting for one more item appends the node to its list last. */
  lemma EnlistAllSnoc(reg: Registry, xs: seq<Gatherable>, x: Gatherable, node: NodeRef)
    ensures EnlistAll(reg, xs + [x], node) == Enlist(EnlistAll(reg, xs, node), x, node)
  {
    assert (xs + [x])[..|xs|] == xs;
  }

  /** The same item inserted twice takes two slots, and its node list names
      the node twice: nothing checks for an item already present. */
  lemma NoDuplicateCheck(items: seq<Gatherable>, reg: Registry, node: NodeRef, item: Gatherable)
    requires |items| + 2 <= Capacity
    ensures var first := SetFirstNullItem(Layout(items), reg, node, item);
            var second := SetFirstNullItem(first.slots, first.registry, node, item);
            second.added && second.slots[|items|] == Some(item) && second.slots[|items| + 1] == Some(item) &&
            NodeList(second.registry, item.itemId) == NodeList(reg, item.itemId) + [node, node]
  {
    InsertIntoLayout(items, reg, node, item);
    var once := Enlist(reg, item, node);
    var more := items + [item];
    InsertIntoLayout(more, once, node, item);
    var final := Layout(more + [item]);
    assert (more + [item])[|items|] == item && (more + [item])[|items| + 1] == item;
    assert final[|items|] == Some(item) && final[|items| + 1] == Some(item);
    var l := NodeList(reg, item.itemId);
    assert NodeList(Enlist(once, item, node), item.itemId) == l + [node] + [node];
    assert l + [node] + [node] == l + [node, node];
  }

  /** The items of `ids` that the lookup knows, in order. */
  function Found(ids: seq<int>, lookup: map<int, Gatherable>): (items: seq<Gatherable>)
    ensures |items| <= |ids|
    ensures forall it :: it in items ==> exists j :: 0 <= j < |ids| && ids[j] in lookup && lookup[ids[j]] == it
    ensures forall j :: 0 <= j < |ids| && ids[j] in lookup ==> lookup[ids[j]] in items
    decreases |ids|
  {
    if |ids| == 0 then []
    else
      var init := Found(ids[..|ids| - 1], lookup);
      assert forall j :: 0 <= j < |ids| - 1 ==> ids[..|ids| - 1][j] == ids[j];
      var last := ids[|ids| - 1];
      if last in lookup then init + [lookup[last]] else init
  }

  /** The items found for a prefix of the ids start the items found for
      all of them. */
  lemma {:induction false} FoundPrefix(ids: seq<int>, lookup: map<int, Gatherable>, j: nat)
    requires j <= |ids|
    ensures var pre := Found(ids[..j], lookup);
            |pre| <= |Found(ids, lookup)| && Found(ids, lookup)[..|pre|] == pre
    decreases |ids| - j
  {
    if j < |ids| {
      FoundPrefix(ids, lookup, j + 1);
      FoundSnoc(ids, lookup, j);
    } else {
      assert ids[..j] == ids;
    }
  }

  /** Every id the lookup knows contributes its item, right after the items
      of the ids before it: the found items are exactly those of the known
      ids, in list order. */
  lemma FoundInOrder(ids: seq<int>, lookup: map<int, Gatherable>, j: nat)
    requires j < |ids| && ids[j] in lookup
    ensures var k := |Found(ids[..j], lookup)|;
            k < |Found(ids, lookup)| && Found(ids, lookup)[k] == lookup[ids[j]]
  {
    FoundSnoc(ids, lookup, j);
    FoundPrefix(ids, lookup, j + 1);
    var pre := Found(ids[..j + 1], lookup);
    assert pre[|Found(ids[..j], lookup)|] == lookup[ids[j]];
  }

  /** One more id extends the found items by its item, if the lookup knows
      it. */
  lemma FoundSnoc(ids: seq<int>, lookup: map<int, Gatherable>, j: nat)
    requires j < |ids|
    ensures Found(ids[..j + 1], lookup) ==
              Found(ids[..j], lookup) + (if ids[j] in lookup then [lookup[ids[j]]] else [])
  {
    assert ids[..j + 1][..j] == ids[..j];
  }

  /** `new NodeItems(node, itemIdList, gatherables)`: every id the item table
      knows is inserted in list order, so the slots hold the first nine of
      those items in that order, and each of those nine items lists the node
      once more. */
  method NewNodeItems(node: NodeRef, itemIds: seq<int>, lookup: map<int, Gatherable>, reg: Registry)
    returns (slots: Slots, reg': Registry)
    ensures var found := Found(itemIds, lookup);
            forall i :: 0 <= i < Capacity ==>
              slots[i] == (if i < |found| then Some(found[i]) else None)
    ensures reg' == EnlistAll(reg, FirstNine(Found(itemIds, lookup)), node)
  {
    slots := EmptySlots;
    reg' := reg;
    for j := 0 to |itemIds|
      invariant slots == InsertAll(EmptySlots, reg, node, Found(itemIds[..j], lookup)).0
      invariant reg' == InsertAll(EmptySlots, reg, node, Found(itemIds[..j], lookup)).1
    {
      ghost var before := Found(itemIds[..j], lookup);
      FoundSnoc(itemIds, lookup, j);
      if itemIds[j] in lookup {
        var item := lookup[itemIds[j]];
        assert Found(itemIds[..j + 1], lookup) == before + [item];
        InsertAllSnoc(EmptySlots, reg, node, before, item);
        var ins := SetFirstNullItem(slots, reg', node, item);
        slots, reg' := ins.slots, ins.registry;
      } else {
        assert Found(itemIds[..j + 1], lookup) == before;
      }
    }
    assert itemIds[..|itemIds|] == itemIds;
    InsertAllFillsInOrder(reg, node, Found(itemIds, lookup));
    LayoutOfFirstNine(Found(itemIds, lookup));
  }

  /** The layout of the first nine of `xs` holds `xs` from slot 0 on. */
  lemma LayoutOfFirstNine(xs: seq<Gatherable>)
    ensures forall i :: 0 <= i < Capacity ==>
              Layout(FirstNine(xs))[i] == (if i < |xs| then Some(xs[i]) else None)
  {
  }

  // ---------------------------------------------------------------------
  // Queries

  /** Some non-empty slot holds an item with this English name. */
  predicate Holds(slots: Slots, name: string)
  {
    exists i :: 0 <= i < Capacity && slots[i].Some? && slots[i].value.englishName == name
  }

  /** `HasItems(params string[] it)`: true for a null or empty argument;
      otherwise true exactly when every name is held by some slot. A null
      name compares unequal to every item name, so it is never held. */
  method HasItems(slots: Slots, names: Option<seq<Option<string>>>) returns (r: bool)
    ensures r <==> names.None? || forall n :: n in names.value ==> n.Some? && Holds(slots, n.value)
  {
    if names.None? || |names.value| == 0 {
      return true;
    }
    var it := names.value;
    for j := 0 to |it|
      invariant forall m :: 0 <= m < j ==> it[m].Some? && Holds(slots, it[m].value)
    {
      var found := false;
      for k := 0 to Capacity
        invariant found <==> exists i :: 0 <= i < k && slots[i].Some? && it[j] == Some(slots[i].value.englishName)
      {
        if slots[k].None? {
          continue;
        }
        if it[j] == Some(slots[k].value.englishName) {
          found := true;
          break;
        }
      }
      if !found {
        assert it[j] in names.value && !(it[j].Some? && Holds(slots, it[j].value));
        return false;
      }
    }
    return true;
  }

  /** `NoItems()`: every slot is empty. */
  method NoItems(slots: Slots) returns (r: bool)
    ensures r <==> forall i :: 0 <= i < Capacity ==> slots[i].None?
  {
    for i := 0 to Capacity
      invariant forall j :: 0 <= j < i ==> slots[j].None?
    {
      if slots[i].Some? {
        return false;
      }
    }
    return true;
  }

  /** `HasItems` on a node without items: true exactly for a null or empty
      list of names, since no name is held. */
  method HasItemsOfEmptyNode(names: Option<seq<Option<string>>>) returns (r: bool)
    ensures r <==> names.None? || |names.value| == 0
  {
    r := HasItems(EmptySlots, names);
    if names.Some? && |names.value| > 0 {
      NoItemsHoldsNothing(EmptySlots, names.value);
    }
  }

  /** A node for which `NoItems` answers true holds no name, so `HasItems`
      answers false for any non-empty list of names. */
  lemma NoItemsHoldsNothing(slots: Slots, names: seq<Option<string>>)
    requires forall i :: 0 <= i < Capacity ==> slots[i].None?
    requires |names| > 0
    ensures !(forall n :: n in names ==> n.Some? && Holds(slots, n.value))
  {
    assert names[0] in names;
  }

  // ---------------------------------------------------------------------
  // Rendering

  /** The texts of the non-empty slots, in slot order. */
  function PresentTexts(slots: seq<Option<Gatherable>>): (ts: seq<string>)
    ensures |ts| <= |slots|
    decreases |slots|
  {
    if |slots| == 0 then []
    else
      PresentTexts(slots[..|slots| - 1])
        + (if slots[|slots| - 1].Some? then [slots[|slots| - 1].value.text] else [])
  }

  /** `xs` without the empty strings in front of its first non-empty one. */
  function DropLeadingEmpty(xs: seq<string>): (ys: seq<string>)
    ensures |ys| > 0 ==> ys[0] != ""
    ensures |ys| <= |xs| && ys == xs[|xs| - |ys|..]
    ensures forall i :: 0 <= i < |xs| - |ys| ==> xs[i] == ""
    decreases |xs|
  {
    if |xs| > 0 && xs[0] == "" then
      var ys := DropLeadingEmpty(xs[1..]);
      assert forall i :: 1 <= i < |xs| ==> xs[1..][i - 1] == xs[i];
      ys
    else xs
  }

  /** Appending a string after the leading empty ones have been dropped. */
  lemma {:induction false} DropLeadingEmptySnoc(xs: seq<string>, t: string)
    ensures DropLeadingEmpty(xs + [t]) ==
              if DropLeadingEmpty(xs) == [] then (if t == "" then [] else [t])
              else DropLeadingEmpty(xs) + [t]
    decreases |xs|
  {
    if |xs| > 0 && xs[0] == "" {
      assert (xs + [t])[1..] == xs[1..] + [t];
      DropLeadingEmptySnoc(xs[1..], t);
    }
  }

  /** One slot more adds its text, if it has an item. */
  lemma PresentTextsSnoc(slots: seq<Option<Gatherable>>, i: nat)
    requires i < |slots|
    ensures PresentTexts(slots[..i + 1]) ==
              PresentTexts(slots[..i]) + (if slots[i].Some? then [slots[i].value.text] else [])
  {
    assert slots[..i + 1][..i] == slots[..i];
  }

  /** One step of the rendering loop: the separator goes in only when the
      text so far is non-empty. */
  lemma PrintStep(before: seq<string>, t: string, s: string)
    requires s == Join("|", DropLeadingEmpty(before))
    ensures (if |s| > 0 then s + "|" + t else t) == Join("|", DropLeadingEmpty(before + [t]))
  {
    DropLeadingEmptySnoc(before, t);
    var d := DropLeadingEmpty(before);
    if |d| > 0 {
      JoinCoversFirst("|", d);
      JoinSnoc("|", d, t);
    }
  }

  /** `PrintItems()`: the texts of the non-empty slots in slot order, each
      after the first preceded by '|'. The separator is written only once
      the text so far is non-empty, so empty texts before the first
      non-empty one leave no trace. */
  method PrintItems(slots: Slots) returns (s: string)
    ensures s == Join("|", DropLeadingEmpty(PresentTexts(slots)))
  {
    s := "";
    var i := 0;
    while i < |slots|
      invariant 0 <= i <= |slots|
      invariant s == Rendered(slots, i)
    {
      if slots[i].Some? {
        var t := slots[i].value.text;
        s := if |s| > 0 then s + "|" + t else t;
      }
      i := i + 1;
    }
    RenderedIsJoin(slots, i);
    assert slots[..i] == slots;
  }

  /** The text after the loop has visited the first `i` slots. */
  function Rendered(slots: seq<Option<Gatherable>>, i: nat): string
    requires i <= |slots|
  {
    if i == 0 then "" else Appended(Rendered(slots, i - 1), slots[i - 1])
  }

  /** One slot's contribution: its text, after '|' once the text so far is
      non-empty. */
  function Appended(s: string, slot: Option<Gatherable>): string
  {
    match slot
    case None => s
    case Some(it) => if |s| > 0 then s + "|" + it.text else it.text
  }

  /** A step keeps the text so far as a prefix, puts '|' right after a
      non-empty one, and an empty slot adds nothing. */
  lemma AppendedExtends(s: string, slot: Option<Gatherable>)
    ensures var r := Appended(s, slot);
            && |s| <= |r| && r[..|s|] == s
            && (slot.None? ==> r == s)
            && (slot.Some? && |s| > 0 ==> |s| < |r| && r[|s|] == '|')
  {
  }

  /** After `i` slots the text is the join of their present texts. */
  lemma {:induction false} RenderedIsJoin(slots: seq<Option<Gatherable>>, i: nat)
    requires i <= |slots|
    ensures Rendered(slots, i) == Join("|", DropLeadingEmpty(PresentTexts(slots[..i])))
  {
    if i > 0 {
      var j := i - 1;
      var prev := Rendered(slots, j);
      RenderedIsJoin(slots, j);
      PrintSlot(slots, j, prev);
      assert j + 1 == i && Rendered(slots, i) == Appended(prev, slots[j]);
    } else {
      NothingRendered(slots);
    }
  }

  /** No slot visited, nothing rendered. */
  lemma NothingRendered(slots: seq<Option<Gatherable>>)
    ensures Join("|", DropLeadingEmpty(PresentTexts(slots[..0]))) == ""
  {
    assert |slots[..0]| == 0;
  }

  /** One iteration of the rendering loop, on slot `i`. */
  lemma PrintSlot(slots: seq<Option<Gatherable>>, i: nat, s: string)
    requires i < |slots|
    requires s == Join("|", DropLeadingEmpty(PresentTexts(slots[..i])))
    ensures Appended(s, slots[i]) == Join("|", DropLeadingEmpty(PresentTexts(slots[..i + 1])))
  {
    var before := PresentTexts(slots[..i]);
    PresentTextsSnoc(slots, i);
    if slots[i].Some? {
      var t := slots[i].value.text;
      assert PresentTexts(slots[..i + 1]) == before + [t];
      PrintStep(before, t, s);
    } else {
      assert PresentTexts(slots[..i + 1]) == before;
    }
  }

  /** When no item renders as the empty string, the summary is the texts of
      the non-empty slots joined with '|', and it is empty exactly when every
      slot is. */
  lemma PrintItemsOfNonEmptyTexts(slots: Slots)
    requires forall i :: 0 <= i < Capacity && slots[i].Some? ==> slots[i].value.text != ""
    ensures DropLeadingEmpty(PresentTexts(slots)) == PresentTexts(slots)
    ensures |PresentTexts(slots)| == 0 <==> forall i :: 0 <= i < Capacity ==> slots[i].None?
  {
    PresentTextsNonEmpty(slots);
    var ts := PresentTexts(slots);
    if |ts| > 0 {
      assert ts[0] in ts;
    }
  }

  /** The texts present, counted: one per non-empty slot; and no text of a
      non-empty slot is empty if no item's text is. */
  lemma {:induction false} PresentTextsNonEmpty(slots: seq<Option<Gatherable>>)
    requires forall i :: 0 <= i < |slots| && slots[i].Some? ==> slots[i].value.text != ""
    ensures forall t :: t in PresentTexts(slots) ==> t != ""
    ensures |PresentTexts(slots)| == 0 <==> forall i :: 0 <= i < |slots| ==> slots[i].None?
    decreases |slots|
  {
    if |slots| > 0 {
      var init := slots[..|slots| - 1];
      assert forall i :: 0 <= i < |init| ==> init[i] == slots[i];
      PresentTextsNonEmpty(init);
    }
  }
}

=== FILE: node_meta.dfy ===
/**
  The classification record of a gathering node (`NodeMeta` in
  Classes/Node.cs): which kind of gathering it takes, its node type, the id
  of its row in the gathering-point table and its level; two bit tests that
  sort the gathering kinds into the miner and botanist families, and an
  ordering by row id.
*/
module NodeMeta {
  import opened Wrappers

  /** The values of a 32-bit `int`. */
  type Int32 = x: int | -0x8000_0000 <= x < 0x8000_0000

  /** The values of a 32-bit `uint`, as a row id. */
  type UInt32 = x: int | 0 <= x < 0x1_0000_0000

  /** `x` reduced to a 32-bit `int`, as unchecked C# arithmetic and the
      `(int)` cast of a `uint` do. */
  function WrapInt32(x: int): (r: Int32)
    ensures (r - x) % 0x1_0000_0000 == 0
    ensures -0x8000_0000 <= x < 0x8000_0000 ==> r == x
  {
    (x + 0x8000_0000) % 0x1_0000_0000 - 0x8000_0000
  }

  /** The bits of a `GatheringType` value. The cast
      `(GatheringType) row.GatheringType.Row` converts any `uint` without a
      check, so the field can hold a code other than the five named
      members. */
  type GatheringType = bv32

  const Mining: GatheringType := 0
  const Quarrying: GatheringType := 1
  const Logging: GatheringType := 2
  const Harvesting: GatheringType := 3
  const Spearfishing: GatheringType := 4

  /** A code that is one of the five named members. */
  predicate IsNamed(g: GatheringType)
  {
    g <= Spearfishing
  }

  datatype NodeType = Regular | Unspoiled | Ephemeral

  datatype NodeMeta = NodeMeta(gatheringType: GatheringType, nodeType: NodeType,
                               pointBaseId: Int32, level: int)

  /** `new NodeMeta(row, type)`: the row id is cast from `uint` to `int`,
      and the type code, the 32 bits of a `uint`, becomes the enum value
      whatever it is. */
  function FromRow(rowId: UInt32, typeRow: bv32, level: int, nodeType: NodeType): (m: NodeMeta)
    ensures m.gatheringType == typeRow
    ensures m.nodeType == nodeType && m.level == level
    ensures rowId < 0x8000_0000 ==> m.pointBaseId == rowId
    ensures rowId >= 0x8000_0000 ==> m.pointBaseId == rowId - 0x1_0000_0000
  {
    NodeMeta(typeRow, nodeType, WrapInt32(rowId), level)
  }

  /** `IsMiner()`: the code has no bit other than bit 0, which holds exactly
      for mining and quarrying, and for no other code. */
  predicate IsMiner(m: NodeMeta)
    ensures IsMiner(m) <==> m.gatheringType == Mining || m.gatheringType == Quarrying
  {
    m.gatheringType & 1 == m.gatheringType
  }

  /** `IsBotanist()`: bit 1 of the code is set. Among the named members this
      holds exactly for logging and harvesting; as a number, it holds
      exactly for codes 2 and 3 modulo 4. */
  predicate IsBotanist(m: NodeMeta)
    ensures IsNamed(m.gatheringType) ==>
              (IsBotanist(m) <==> m.gatheringType == Logging || m.gatheringType == Harvesting)
    ensures IsBotanist(m) <==> m.gatheringType % 4 == 2 || m.gatheringType % 4 == 3
  {
    m.gatheringType & 2 == 2
  }

  /** The two families are disjoint, and among the named members
      spearfishing is the one in neither. */
  lemma FamiliesDisjoint(m: NodeMeta)
    ensures !(IsMiner(m) && IsBotanist(m))
    ensures IsNamed(m.gatheringType) ==>
              (m.gatheringType == Spearfishing <==> !IsMiner(m) && !IsBotanist(m))
  {
  }

  /** An unnamed code is never a miner, and codes 6 and 7 pass the botanist
      test while 5 passes neither. */
  lemma UnnamedCodes(m: NodeMeta)
    ensures !IsNamed(m.gatheringType) ==> !IsMiner(m)
    ensures m.gatheringType == 6 || m.gatheringType == 7 ==> IsBotanist(m)
    ensures m.gatheringType == 5 ==> !IsMiner(m) && !IsBotanist(m)
  {
  }

  /** The argument of `CompareTo(object obj)`: null, a `NodeMeta`, or any
      other object (a `Node` among them). */
  datatype Comparand = Null | Meta(meta: NodeMeta) | NotMeta

  /** `CompareTo(obj)`: null is below every record; any other object is cast
      with `as`, which yields null for a non-`NodeMeta`, and is then
      dereferenced; the answer is the difference of the row ids in unchecked
      32-bit arithmetic. */
  function CompareTo(m: NodeMeta, obj: Comparand): (r: Result<Int32>)
    ensures obj.Null? ==> r == Success(1)
    ensures obj.NotMeta? ==> r == Failure(NullDereference)
    ensures obj.Meta? ==> r.Success? && (r.value - (m.pointBaseId - obj.meta.pointBaseId)) % 0x1_0000_0000 == 0
  {
    match obj
    case Null => Success(1)
    case NotMeta => Failure(NullDereference)
    case Meta(rhs) => Success(WrapInt32(m.pointBaseId - rhs.pointBaseId))
  }

  /** When the difference of the ids fits in 32 bits, the sign of the
      comparison is the order of the ids. */
  lemma CompareOrdersByRowId(a: NodeMeta, b: NodeMeta)
    requires -0x8000_0000 <= a.pointBaseId - b.pointBaseId < 0x8000_0000
    ensures CompareTo(a, Meta(b)).Success?
    ensures CompareTo(a, Meta(b)).value < 0 <==> a.pointBaseId < b.pointBaseId
    ensures CompareTo(a, Meta(b)).value == 0 <==> a.pointBaseId == b.pointBaseId
    ensures CompareTo(a, Meta(b)).value > 0 <==> a.pointBaseId > b.pointBaseId
  {
  }

  /** Row ids come from a `uint` below 2^31 in practice; for those the
      comparison is antisymmetric in sign. */
  lemma CompareAntisymmetric(a: NodeMeta, b: NodeMeta)
    requires a.pointBaseId >= 0 && b.pointBaseId >= 0
    ensures CompareTo(a, Meta(b)).value < 0 <==> CompareTo(b, Meta(a)).value > 0
    ensures CompareTo(a, Meta(b)).value == 0 <==> CompareTo(b, Meta(a)).value == 0
  {
    CompareOrdersByRowId(a, b);
    CompareOrdersByRowId(b, a);
  }

  /** Ids far enough apart overflow the difference and reverse the order:
      the lowest id compares above 1. */
  lemma CompareOverflowReverses()
    ensures CompareTo(NodeMeta(Mining, Regular, -0x8000_0000, 1), Meta(NodeMeta(Mining, Regular, 1, 1)))
            == Success(0x7FFF_FFFF)
  {
  }

  /** Ids exactly 2^31 apart break antisymmetry: the difference wraps to
      -2^31 both ways, so each record compares below the other. */
  lemma CompareNotAntisymmetric()
    ensures var a, b := NodeMeta(Mining, Regular, -0x8000_0000, 1), NodeMeta(Mining, Regular, 0, 1);
            CompareTo(a, Meta(b)) == Success(-0x8000_0000) && CompareTo(b, Meta(a)) == Success(-0x8000_0000)
  {
  }

  /** Row ids 10 and 20 compare as 10 below 20, and null compares below
      either. */
  lemma CompareExamples()
    ensures CompareTo(NodeMeta(Logging, Regular, 10, 50), Meta(NodeMeta(Mining, Unspoiled, 20, 1))) == Success(-10)
    ensures CompareTo(NodeMeta(Logging, Regular, 20, 50), Meta(NodeMeta(Mining, Unspoiled, 10, 1))) == Success(10)
    ensures CompareTo(NodeMeta(Logging, Regular, 10, 50), Null) == Success(1)
  {
  }
}

=== FILE: node_times.dfy ===
/** The `NodeTimes` class of Classes/Node.cs: a node's hourly availability as a
    24-bit field of an `int`, bit h set meaning "up during Eorzea hour h". */
module NodeTimes {
  import opened Text
  import opened Wrappers

  /** Encoded clock times (`hour * 100 + minute`) arrive as C# `ushort`s. */
  type UShort = x: int | 0 <= x < 0x1_0000

  /** The hour field. Every constructor leaves the bits above 23 clear, so the
      type carries that bound. */
  type Mask = m: bv32 | m <= 0x00FF_FFFF

  /** `allHours`: every hour of the day is up. */
  const AllHours: Mask := 0x00FF_FFFF

  /** The largest encoded time the conversion accepts. */
  const MaxEncodedTime := 2400

  datatype NodeTimes = NodeTimes(hours: Mask)

  /** One entry of a rare-pop time table: an encoded start time and a duration
      in the same encoding (`Durationm`). */
  datatype RarePopSlot = RarePopSlot(startTime: UShort, durationm: UShort)

  // ---------------------------------------------------------------------
  // Bit access

  /** `h` as a shift amount. Built by counting so that the solver never has
      to invert an integer-to-bit-vector conversion. */
  function BitIndex(h: nat): (k: bv32)
    requires h < 32
    ensures k as int == h
    ensures k < 32
  {
    if h == 0 then 0 else BitIndex(h - 1) + 1
  }

  /** Bit `h` of `m`: `((m >> h) & 1) == 1`. */
  predicate Bit(m: bv32, h: nat)
    requires h < 32
  {
    (m >> BitIndex(h)) & 1 == 1
  }

  /** `1 << h`. */
  function HourFlag(h: nat): bv32
    requires h < 32
  {
    1 << BitIndex(h)
  }

  /** Bit `h` of a mask with the flag of hour `c` added. */
  lemma FlagOr(c: nat, m: bv32, h: nat)
    requires c < 32 && h < 32
    ensures Bit(HourFlag(c) | m, h) <==> h == c || Bit(m, h)
  {
    BitOfOr(HourFlag(c), m, h);
    BitOfFlag(c, h);
  }

  lemma BitOfOr(a: bv32, b: bv32, h: nat)
    requires h < 32
    ensures Bit(a | b, h) <==> Bit(a, h) || Bit(b, h)
  {
    var k := BitIndex(h);
    assert ((a | b) >> k) & 1 == ((a >> k) & 1) | ((b >> k) & 1);
  }

  lemma BitOfFlag(j: nat, h: nat)
    requires j < 32 && h < 32
    ensures Bit(HourFlag(j), h) <==> h == j
  {
    var kj, kh := BitIndex(j), BitIndex(h);
    if j == h {
      assert ((1 as bv32) << kj >> kh) & 1 == 1;
    } else {
      BitIndexDistinct(j, h);
      ShiftedOneElsewhere(kj, kh);
    }
  }

  lemma BitIndexDistinct(j: nat, h: nat)
    requires j < 32 && h < 32 && j != h
    ensures BitIndex(j) != BitIndex(h)
  {
  }

  /** A single set bit is not found at any other position. */
  lemma ShiftedOneElsewhere(a: bv32, b: bv32)
    requires a < 32 && b < 32 && a != b
    ensures ((1 as bv32) << a >> b) & 1 == 0
  {
  }

  lemma NoBitOfZero(h: nat)
    requires h < 32
    ensures !Bit(0, h)
  {
  }

  /** A mask never has a bit above hour 23. */
  lemma NoHighBit(m: Mask, h: nat)
    requires 24 <= h < 32
    ensures !Bit(m, h)
  {
    var k := BitIndex(h);
    assert 24 <= k < 32;
    assert (m >> k) & 1 == 0;
  }

  lemma AllHoursBit(h: nat)
    requires h < 32
    ensures Bit(AllHours, h) <==> h < 24
  {
    var k := BitIndex(h);
    assert k as int == h;
    if h < 24 {
      assert k < 24;
      assert ((0x00FF_FFFF as bv32) >> k) & 1 == 1;
    } else {
      assert k >= 24;
    }
  }

  /** A mask with all 24 hour bits set is `allHours`. */
  lemma FullMask(m: Mask)
    requires forall h: nat :: h < 24 ==> Bit(m, h)
    ensures m == AllHours
  {
    assert Bit(m, 0) && Bit(m, 1) && Bit(m, 2) && Bit(m, 3) && Bit(m, 4) && Bit(m, 5);
    assert Bit(m, 6) && Bit(m, 7) && Bit(m, 8) && Bit(m, 9) && Bit(m, 10) && Bit(m, 11);
    assert Bit(m, 12) && Bit(m, 13) && Bit(m, 14) && Bit(m, 15) && Bit(m, 16) && Bit(m, 17);
    assert Bit(m, 18) && Bit(m, 19) && Bit(m, 20) && Bit(m, 21) && Bit(m, 22) && Bit(m, 23);
  }

  // ---------------------------------------------------------------------
  // Conversion from encoded start/end times

  /** The hour a loop index stands for: `i % 24`. */
  function ClockHour(i: nat): nat
  {
    i % 24
  }

  /** Reference reading of an ephemeral window: hour `h` is up when the times
      are "always up" (equal, or beyond 24:00), or when `h` lies on the
      clock face from the start hour up to but excluding the end hour, going
      round past midnight when the end hour is smaller than the start hour. */
  predicate InWindow(start: UShort, end: UShort, h: nat)
  {
    if start == end || start > MaxEncodedTime || end > MaxEncodedTime then true
    else
      var s, e := start / 100, end / 100;
      if e < s then s <= h || h < e else s <= h < e
  }

  /** `ret |= 1 << (i % 24)` for every `i` in `[i0, e)`. */
  function HourRange(i0: nat, e: nat): (r: bv32)
    ensures r <= 0x00FF_FFFF
    ensures forall h: nat :: h < 32 ==>
              (Bit(r, h) <==> exists i :: i0 <= i < e && ClockHour(i) == h)
    decreases e - i0
  {
    if e <= i0 then
      assert forall h: nat :: h < 32 ==> !Bit(0, h) by {
        forall h: nat | h < 32 { NoBitOfZero(h); }
      }
      0
    else
      var rest := HourRange(i0 + 1, e);
      var r := HourFlag(ClockHour(i0)) | rest;
      FlagBelow(ClockHour(i0), rest);
      assert forall h: nat :: h < 32 ==>
               (Bit(r, h) <==> exists i :: i0 <= i < e && ClockHour(i) == h) by {
        forall h: nat | h < 32
          ensures Bit(r, h) <==> exists i :: i0 <= i < e && ClockHour(i) == h
        {
          RangeStep(i0, e, rest, h);
        }
      }
      r
  }

  /** Adding the flag of an hour of the day keeps a mask within 24 bits. */
  lemma FlagBelow(h: nat, m: bv32)
    requires h < 24 && m <= 0x00FF_FFFF
    ensures HourFlag(h) | m <= 0x00FF_FFFF
  {
    var k := BitIndex(h);
    assert k < 24;
  }

  /** One more loop step sets the bit of its clock hour. */
  lemma RangeStep(i0: nat, e: nat, rest: bv32, h: nat)
    requires i0 < e && h < 32
    requires Bit(rest, h) <==> exists i :: i0 + 1 <= i < e && ClockHour(i) == h
    ensures Bit(HourFlag(ClockHour(i0)) | rest, h) <==> exists i :: i0 <= i < e && ClockHour(i) == h
  {
    FlagOr(ClockHour(i0), rest, h);
    if h == ClockHour(i0) {
      assert i0 <= i0 < e && ClockHour(i0) == h;
    }
    if exists i :: i0 <= i < e && ClockHour(i) == h {
      var i :| i0 <= i < e && ClockHour(i) == h;
      if i > i0 {
        assert i0 + 1 <= i < e;
      }
    }
  }

  /** `ConvertFromEphemeralTime`: equal times or a time beyond 24:00 mean
      always up; otherwise the hours from the start hour up to but excluding
      the end hour, adding 24 to the end hour when it is strictly smaller.
      Two times in the same hour therefore give no hours at all. */
  function ConvertFromEphemeralTime(start: UShort, end: UShort): (r: Mask)
    ensures start == end || start > MaxEncodedTime || end > MaxEncodedTime ==> r == AllHours
    ensures forall h: nat :: h < 24 ==> (Bit(r, h) <==> InWindow(start, end, h))
  {
    if start == end || start > MaxEncodedTime || end > MaxEncodedTime then
      assert forall h: nat :: h < 24 ==> Bit(AllHours, h) by {
        forall h: nat | h < 24 { AllHoursBit(h); }
      }
      AllHours
    else
      var s := start / 100;
      var e := if end / 100 < s then end / 100 + 24 else end / 100;
      var r := HourRange(s, e);
      assert forall h: nat :: h < 24 ==> (Bit(r, h) <==> InWindow(start, end, h)) by {
        forall h: nat | h < 24
          ensures Bit(r, h) <==> InWindow(start, end, h)
        {
          WindowWitness(s, end / 100, h);
        }
      }
      r
  }

  /** The loop range `[s, e)` (with 24 added to a smaller end hour) hits
      hour `h` exactly when the clock-face reading says so. */
  lemma WindowWitness(s: nat, e: nat, h: nat)
    requires s <= 24 && e <= 24 && h < 24
    ensures (exists i :: s <= i < (if e < s then e + 24 else e) && ClockHour(i) == h)
            <==> (if e < s then s <= h || h < e else s <= h < e)
  {
    var e' := if e < s then e + 24 else e;
    if e < s {
      if s <= h {
        assert s <= h < e' && ClockHour(h) == h;
      } else if h < e {
        assert s <= h + 24 < e' && ClockHour(h + 24) == h;
      }
    } else if s <= h < e {
      assert ClockHour(h) == h;
    }
  }

  // ---------------------------------------------------------------------
  // Constructors

  /** `new NodeTimes()`. */
  function DefaultTimes(): (t: NodeTimes)
    ensures AlwaysUp(t)
  {
    NodeTimes(AllHours)
  }

  /** `new NodeTimes(start, end)`. */
  function FromEphemeralTime(start: UShort, end: UShort): (t: NodeTimes)
    ensures forall h: nat :: h < 24 ==> (IsUp(t, h) <==> InWindow(start, end, h))
  {
    var t := NodeTimes(ConvertFromEphemeralTime(start, end));
    forall h: nat | h < 24
      ensures IsUp(t, h) <==> InWindow(start, end, h)
    {
      UpIsBit(t, h);
    }
    t
  }

  /** The encoded end time of a rare-pop slot: a duration of 160 is read as
      two hours (200), and the sum wraps at 2400. */
  function SlotEnd(slot: RarePopSlot): (e: UShort)
    ensures e < 2400
    ensures slot.durationm == 160 ==> e == (slot.startTime + 200) % 2400
    ensures slot.durationm != 160 && slot.startTime + slot.durationm < 2400 ==> e == slot.startTime + slot.durationm
  {
    var duration := if slot.durationm == 160 then 200 else slot.durationm;
    (slot.startTime + duration) % 2400
  }

  /** Hour `h` is up in a slot that is not skipped. */
  predicate SlotCovers(slot: RarePopSlot, h: nat)
  {
    slot.durationm != 0 && InWindow(slot.startTime, SlotEnd(slot), h)
  }

  /** Some slot of the table covers hour `h`. */
  predicate SomeSlotCovers(slots: seq<RarePopSlot>, h: nat)
  {
    exists j :: 0 <= j < |slots| && SlotCovers(slots[j], h)
  }

  /** Adding a slot at the end of a table adds exactly that slot's hours. */
  lemma SomeSlotCoversSnoc(slots: seq<RarePopSlot>, h: nat)
    requires |slots| > 0
    ensures SomeSlotCovers(slots, h) <==>
              SomeSlotCovers(slots[..|slots| - 1], h) || SlotCovers(slots[|slots| - 1], h)
  {
    var init := slots[..|slots| - 1];
    if SomeSlotCovers(slots, h) {
      var j :| 0 <= j < |slots| && SlotCovers(slots[j], h);
      if j < |init| {
        assert init[j] == slots[j];
      }
    }
    if SomeSlotCovers(init, h) {
      var j :| 0 <= j < |init| && SlotCovers(init[j], h);
      assert slots[j] == init[j];
    }
  }

  /** The OR over the slots, in table order, of each slot's converted window;
      slots with a zero duration are skipped. */
  function TableHours(slots: seq<RarePopSlot>): (r: Mask)
    ensures forall h: nat :: h < 24 ==> (Bit(r, h) <==> SomeSlotCovers(slots, h))
    decreases |slots|
  {
    if |slots| == 0 then
      assert forall h: nat :: h < 24 ==> !Bit(0, h) by {
        forall h: nat | h < 24 { NoBitOfZero(h); }
      }
      0
    else
      var last := slots[|slots| - 1];
      var rest := TableHours(slots[..|slots| - 1]);
      if last.durationm == 0 then
        assert forall h: nat :: h < 24 ==> (Bit(rest, h) <==> SomeSlotCovers(slots, h)) by {
          forall h: nat | h < 24
            ensures Bit(rest, h) <==> SomeSlotCovers(slots, h)
          {
            SomeSlotCoversSnoc(slots, h);
          }
        }
        rest
      else
        var w := ConvertFromEphemeralTime(last.startTime, SlotEnd(last));
        var r := rest | w;
        assert r <= 0x00FF_FFFF;
        assert forall h: nat :: h < 24 ==> (Bit(r, h) <==> SomeSlotCovers(slots, h)) by {
          forall h: nat | h < 24
            ensures Bit(r, h) <==> SomeSlotCovers(slots, h)
          {
            BitOfOr(rest, w, h);
            SomeSlotCoversSnoc(slots, h);
          }
        }
        r
  }

  /** `new NodeTimes(GatheringRarePopTimeTable table)`. A null table leaves
      the field at its default 0; otherwise hour `h` is up exactly when some
      slot with a non-zero duration covers it. */
  function FromRarePopTable(table: Option<seq<RarePopSlot>>): (t: NodeTimes)
    ensures table.None? ==> t.hours == 0
    ensures table.Some? ==> forall h: nat :: h < 24 ==>
              (IsUp(t, h) <==> SomeSlotCovers(table.value, h))
  {
    match table
    case None => NodeTimes(0)
    case Some(slots) =>
      var t := NodeTimes(TableHours(slots));
      assert forall h: nat :: h < 24 ==> (IsUp(t, h) <==> SomeSlotCovers(slots, h)) by {
        forall h: nat | h < 24
          ensures IsUp(t, h) <==> SomeSlotCovers(slots, h)
        {
          assert h % 32 == h;
        }
      }
      t
  }

  // ---------------------------------------------------------------------
  // Queries

  /** `AlwaysUp()`: the field is `allHours`, which is the case exactly when
      every one of the 24 hours is up. */
  predicate AlwaysUp(t: NodeTimes)
    ensures AlwaysUp(t) <==> forall h: nat :: h < 24 ==> IsUp(t, h)
  {
    assert t.hours == AllHours ==> forall h: nat :: h < 24 ==> IsUp(t, h) by {
      forall h: nat | h < 24 { AllHoursBit(h); }
    }
    assert (forall h: nat :: h < 24 ==> IsUp(t, h)) ==> t.hours == AllHours by {
      if forall h: nat :: h < 24 ==> IsUp(t, h) {
        forall h: nat | h < 24 ensures Bit(t.hours, h) {
          assert IsUp(t, h) && h % 32 == h;
        }
        FullMask(t.hours);
      }
    }
    t.hours == AllHours
  }

  /** `IsUp(hour)`: `((hours >> hour) & 1) == 1`. C# masks an `int` shift
      count to its low five bits, so the hour is read modulo 32; hours 24 to
      31 are never up. */
  predicate IsUp(t: NodeTimes, hour: int)
    ensures IsUp(t, hour) ==> hour % 32 < 24
  {
    assert 24 <= hour % 32 ==> !Bit(t.hours, hour % 32) by {
      if 24 <= hour % 32 { NoHighBit(t.hours, hour % 32); }
    }
    Bit(t.hours, hour % 32)
  }

  /** Within the day the shift count is the hour itself. */
  lemma UpIsBit(t: NodeTimes, h: nat)
    requires h < 24
    ensures IsUp(t, h) <==> Bit(t.hours, h)
  {
    assert h % 32 == h;
  }

  /** The shift count is taken modulo 32: hours 32 apart answer alike, and
      a negative hour reads a high bit. */
  lemma ShiftCountMasked(t: NodeTimes, hour: int)
    ensures IsUp(t, hour) == IsUp(t, hour + 32)
    ensures !IsUp(t, -1)
  {
  }

  // ---------------------------------------------------------------------
  // The 24-character table

  /** The 32 bits of `m`, least significant first. */
  function BitTable(m: bv32): (bits: seq<bool>)
    ensures |bits| == 32
    ensures forall j :: 0 <= j < 32 ==> bits[j] == Bit(m, j)
  {
    seq(32, j requires 0 <= j < 32 => Bit(m, j))
  }

  /** The number of binary digits among the low `k` bits: one more than the
      highest set bit below `k`, or 0 when there is none. */
  function BitLength(bits: seq<bool>, k: nat): (n: nat)
    requires k <= |bits|
    ensures n <= k
    ensures forall j :: n <= j < k ==> !bits[j]
    ensures n > 0 ==> bits[n - 1]
  {
    if k == 0 then 0 else if bits[k - 1] then k else BitLength(bits, k - 1)
  }

  /** `Convert.ToString(m, 2)`: the binary digits, most significant first,
      without leading zeros, and "0" for zero. The digit for bit i stands i
      places from the right, and every bit beyond the digits is clear. */
  function BinaryDigits(bits: seq<bool>): (r: string)
    requires |bits| > 0
    ensures 1 <= |r| <= |bits|
    ensures forall i :: 0 <= i < |r| ==> r[|r| - 1 - i] == if bits[i] then '1' else '0'
    ensures forall i :: |r| <= i < |bits| ==> !bits[i]
    ensures |r| == 1 || bits[|r| - 1]
  {
    var n := BitLength(bits, |bits|);
    if n == 0 then
      assert !bits[0];
      "0"
    else
      seq(n, j requires 0 <= j < n => if bits[n - 1 - j] then '1' else '0')
  }

  lemma HighBitsClear(m: Mask)
    ensures forall j :: 24 <= j < 32 ==> !BitTable(m)[j]
  {
    forall j | 24 <= j < 32 ensures !BitTable(m)[j] {
      NoHighBit(m, j);
    }
  }

  /** Padding the digits of a value below 2^24 to 24 and reversing them
      reads the bits least significant first. */
  lemma PaddedDigits(bits: seq<bool>)
    requires 24 <= |bits| && forall j :: 24 <= j < |bits| ==> !bits[j]
    ensures Reverse(PadLeft(BinaryDigits(bits), 24, '0'))
            == seq(24, i requires 0 <= i < 24 => if bits[i] then '1' else '0')
  {
    var r := Reverse(PadLeft(BinaryDigits(bits), 24, '0'));
    var want := seq(24, i requires 0 <= i < 24 => if bits[i] then '1' else '0');
    forall i | 0 <= i < 24
      ensures r[i] == want[i]
    {
      PaddedDigit(bits, i);
    }
    assert r == want;
  }

  /** With every bit from 24 on clear, there are at most 24 digits. */
  lemma DigitsFit(bits: seq<bool>)
    requires 24 <= |bits| && forall j :: 24 <= j < |bits| ==> !bits[j]
    ensures |BinaryDigits(bits)| <= 24
  {
    var n := |BinaryDigits(bits)|;
    if n > 24 {
      assert false;
    }
  }

  /** Character `i` of the padded, reversed digits reads bit `i`. */
  lemma PaddedDigit(bits: seq<bool>, i: nat)
    requires 24 <= |bits| && forall j :: 24 <= j < |bits| ==> !bits[j]
    requires i < 24
    ensures |Reverse(PadLeft(BinaryDigits(bits), 24, '0'))| == 24
    ensures Reverse(PadLeft(BinaryDigits(bits), 24, '0'))[i] == if bits[i] then '1' else '0'
  {
    var digits := BinaryDigits(bits);
    var n := |digits|;
    DigitsFit(bits);
    var padded := PadLeft(digits, 24, '0');
    assert |padded| == 24;
    ReverseAt(padded, i);
    PadLeftAt(digits, 24, '0', 23 - i);
    if i >= n {
      assert !bits[i];
    }
  }

  /** `UptimeTable()`: the binary digits left-padded to 24 and reversed, so
      that character i reads hour i. */
  function UptimeTable(t: NodeTimes): (r: string)
    ensures |r| == 24
    ensures forall i :: 0 <= i < 24 ==> r[i] == (if IsUp(t, i) then '1' else '0')
  {
    var bits := BitTable(t.hours);
    HighBitsClear(t.hours);
    PaddedDigits(bits);
    assert forall i :: 0 <= i < 24 ==> IsUp(t, i) == bits[i] by {
      forall i | 0 <= i < 24 ensures IsUp(t, i) == bits[i] {
        assert i % 32 == i;
      }
    }
    Reverse(PadLeft(BinaryDigits(bits), 24, '0'))
  }

  // ---------------------------------------------------------------------
  // Human-readable hours

  /** The hours of the day as a table of up/down flags. */
  function HourTable(t: NodeTimes): (up: seq<bool>)
    ensures |up| == 24
    ensures forall h :: 0 <= h < 24 ==> up[h] == IsUp(t, h)
  {
    seq(24, h requires 0 <= h < 24 => IsUp(t, h))
  }

  /** A run of up hours `[first, stop)`. */
  datatype Run = Run(first: nat, stop: nat)

  /** Hour `i` closes a run: the hour before it is up and hour `i` is down. */
  predicate ClosesRun(up: seq<bool>, i: nat)
    requires i < |up|
  {
    0 < i && up[i - 1] && !up[i]
  }

  /** The first hour of the run of up hours that reaches hour `k`. */
  function RunStart(up: seq<bool>, k: nat): (a: nat)
    requires k < |up|
    ensures a <= k
    ensures forall j :: a <= j < k ==> up[j]
    ensures a == 0 || !up[a - 1]
  {
    if k > 0 && up[k - 1] then RunStart(up, k - 1) else k
  }

  /** A maximal run of up hours that a down hour closes within the table. */
  predicate IsClosedRun(up: seq<bool>, r: Run)
  {
    && r.first < r.stop < |up|
    && (forall j :: r.first <= j < r.stop ==> up[j])
    && !up[r.stop]
    && (r.first == 0 || !up[r.first - 1])
  }

  /** The runs closed by hours below `n`, in hour order. */
  function ClosedRuns(up: seq<bool>, n: nat): (runs: seq<Run>)
    requires n <= |up|
    ensures forall r :: r in runs ==> IsClosedRun(up, r) && r.stop < n
    ensures forall i, j :: 0 <= i < j < |runs| ==> runs[i].stop < runs[j].first
  {
    if n == 0 then []
    else if ClosesRun(up, n - 1) then ClosedRuns(up, n - 1) + [Run(RunStart(up, n - 2), n - 1)]
    else ClosedRuns(up, n - 1)
  }

  /** The start of a run is determined by any hour inside it. */
  lemma {:induction false} RunStartOf(up: seq<bool>, a: nat, k: nat)
    requires a <= k < |up|
    requires forall j :: a <= j <= k ==> up[j]
    requires a == 0 || !up[a - 1]
    ensures RunStart(up, k) == a
    decreases k
  {
    if k > a {
      assert up[k - 1];
      RunStartOf(up, a, k - 1);
    }
  }

  /** A run closed before hour `n` stays in the list for any later `m`. */
  lemma {:induction false} ClosedRunsGrow(up: seq<bool>, r: Run, n: nat, m: nat)
    requires n <= m <= |up|
    requires r in ClosedRuns(up, n)
    ensures r in ClosedRuns(up, m)
    decreases m
  {
    if n < m {
      ClosedRunsGrow(up, r, n, m - 1);
      assert ClosedRuns(up, m - 1) <= ClosedRuns(up, m);
    }
  }

  /** The run list holds exactly the maximal runs closed within the table. */
  lemma ClosedRunsComplete(up: seq<bool>, r: Run)
    ensures r in ClosedRuns(up, |up|) <==> IsClosedRun(up, r)
  {
    if IsClosedRun(up, r) {
      RunStartOf(up, r.first, r.stop - 1);
      assert ClosesRun(up, r.stop);
      assert r in ClosedRuns(up, r.stop + 1);
      ClosedRunsGrow(up, r, r.stop + 1, |up|);
    }
  }

  /** The end hour the source prints for a run: `max + 1`, where `max` is
      only ever set on the second up hour of a run, so a one-hour run prints
      an end of 0. */
  function PrintedEnd(r: Run): nat
  {
    if r.stop - r.first >= 2 then r.stop else 0
  }

  /** The printed end is one past the scan's `max` at the closing hour: the
      run's last hour when it has two or more hours, and -1 otherwise. */
  lemma PrintedEndIsMaxPlusOne(r: Run)
    requires r.first < r.stop
    ensures PrintedEnd(r) == (if r.first < r.stop - 1 then r.stop - 1 else -1) + 1
    ensures PrintedEnd(r) == r.stop <==> r.stop - r.first >= 2
  {
  }

  /** "HH:00 - HH:00 ET". */
  function Segment(first: nat, end: nat): (s: string)
    requires first < 100 && end < 100
    ensures |s| == 16
  {
    Pad2(first) + ":00 - " + Pad2(end) + ":00 ET"
  }

  /** The segments the source prints for a list of runs. */
  function PrintedSegments(runs: seq<Run>): (segs: seq<string>)
    requires forall r :: r in runs ==> r.first < r.stop <= 24
    ensures |segs| == |runs|
  {
    seq(|runs|, j requires 0 <= j < |runs| => Segment(runs[j].first, PrintedEnd(runs[j])))
  }

  /** Closing one more run appends its segment, after " and " unless it is
      the first. */
  lemma PrintedStep(up: seq<bool>, i: nat, s: string)
    requires i < |up| == 24 && ClosesRun(up, i)
    requires s == Join(" and ", PrintedSegments(ClosedRuns(up, i)))
    ensures Join(" and ", PrintedSegments(ClosedRuns(up, i + 1)))
            == (if |s| > 0 then s + " and " else s)
               + Segment(RunStart(up, i - 1), PrintedEnd(Run(RunStart(up, i - 1), i)))
  {
    var before := ClosedRuns(up, i);
    var run := Run(RunStart(up, i - 1), i);
    var seg := Segment(run.first, PrintedEnd(run));
    assert ClosedRuns(up, i + 1) == before + [run];
    assert PrintedSegments(before + [run]) == PrintedSegments(before) + [seg];
    if |before| > 0 {
      JoinSnoc(" and ", PrintedSegments(before), seg);
      JoinCoversFirst(" and ", PrintedSegments(before));
    } else {
      assert PrintedSegments(before) + [seg] == [seg];
    }
  }

  /** `PrintHours()`: one segment per maximal run of up hours that a down
      hour closes, in hour order, every one after the first preceded by
      " and " (the `Replace` call on the accumulated string discards its
      result); a run still open at hour 23 is never printed. */
  method PrintHours(t: NodeTimes) returns (s: string)
    ensures s == Join(" and ", PrintedSegments(ClosedRuns(HourTable(t), 24)))
  {
    var up := HourTable(t);
    s := "";
    var min, max := -1, -1;
    for i := 0 to 24
      invariant s == Join(" and ", PrintedSegments(ClosedRuns(up, i)))
      invariant min == if i > 0 && up[i - 1] then RunStart(up, i - 1) else -1
      invariant max == if i > 0 && up[i - 1] && RunStart(up, i - 1) < i - 1 then i - 1 else -1
    {
      // the table entry is the source's `IsUp(i)`
      assert up[i] == IsUp(t, i);
      if up[i] {
        if min < 0 {
          min := i;
        } else {
          max := i;
        }
      } else if min >= 0 {
        PrintedStep(up, i, s);
        if |s| > 0 {
          s := s + " and ";
        }
        s := s + Segment(min, max + 1);
        min := -1;
        max := -1;
      }
    }
  }

  // ---------------------------------------------------------------------
  // Reading the run list off a known table

  /** Hours that close no run leave the run list as it is. */
  lemma {:induction false} ClosedRunsSkip(up: seq<bool>, k: nat, n: nat)
    requires k <= n <= |up|
    requires forall i :: k <= i < n ==> !ClosesRun(up, i)
    ensures ClosedRuns(up, n) == ClosedRuns(up, k)
    decreases n
  {
    if k < n {
      ClosedRunsSkip(up, k, n - 1);
    }
  }

  /** When `[a, b)` is a closed run and no later hour below `n` closes
      another, the list up to `n` ends with it. */
  lemma ClosedRunsEndWith(up: seq<bool>, a: nat, b: nat, n: nat)
    requires IsClosedRun(up, Run(a, b)) && b < n <= |up|
    requires forall i :: b < i < n ==> !ClosesRun(up, i)
    ensures ClosedRuns(up, n) == ClosedRuns(up, b) + [Run(a, b)]
  {
    RunStartOf(up, a, b - 1);
    assert ClosesRun(up, b);
    ClosedRunsSkip(up, b + 1, n);
  }

  /** A day with a single stretch of up hours `[a, b)` that ends before
      midnight has exactly that one closed run. */
  lemma SingleClosedRun(up: seq<bool>, a: nat, b: nat)
    requires |up| == 24 && a < b < 24
    requires forall h :: 0 <= h < 24 ==> (up[h] <==> a <= h < b)
    ensures ClosedRuns(up, 24) == [Run(a, b)]
  {
    ClosedRunsEndWith(up, a, b, 24);
    ClosedRunsSkip(up, 0, b);
  }

  // ---------------------------------------------------------------------
  // Rendering that reports every run

  /** The first down hour at or after `h`, or the table length when there
      is none. */
  function NextDown(up: seq<bool>, h: nat): (b: nat)
    requires h <= |up|
    ensures h <= b <= |up|
    ensures forall j :: h <= j < b ==> up[j]
    ensures b < |up| ==> !up[b]
    decreases |up| - h
  {
    if h == |up| || !up[h] then h else NextDown(up, h + 1)
  }

  /** A run that reaches back over every hour from `h` to `k` starts no
      later than `h`. */
  lemma {:induction false} RunStartBelow(up: seq<bool>, h: nat, k: nat)
    requires h <= k < |up|
    requires forall j :: h <= j <= k ==> up[j]
    ensures RunStart(up, k) <= h
    decreases k
  {
    if h < k {
      RunStartBelow(up, h, k - 1);
    }
  }

  /** The runs the rendering evidently means to report: every maximal run
      of up hours in hour order, including one still open at the end of
      hour 23, and none when the whole day is up. */
  function IntendedRuns(up: seq<bool>): (runs: seq<Run>)
    requires |up| == 24
    ensures forall r :: r in runs ==> r.first < r.stop <= 24
  {
    var n := |up|;
    if forall h :: 0 <= h < n ==> up[h] then []
    else ClosedRuns(up, n) + (if up[n - 1] then [Run(RunStart(up, n - 1), n)] else [])
  }

  /** `xs` joined with ", " and with " and " before the last element. */
  function ListJoin(xs: seq<string>): string
  {
    if |xs| <= 1 then Join(", ", xs)
    else Join(", ", xs[..|xs| - 1]) + " and " + xs[|xs| - 1]
  }

  /** Every run with its true end hour, listed as "A, B and C". */
  function IntendedHoursText(t: NodeTimes): string
  {
    var runs := IntendedRuns(HourTable(t));
    ListJoin(seq(|runs|, j requires 0 <= j < |runs| => Segment(runs[j].first, runs[j].stop)))
  }

  /** Reporting every run means that, short of an always-up day, each up
      hour lies in some reported run. */
  lemma IntendedRunsCoverUpHours(up: seq<bool>, h: nat)
    requires |up| == 24 && h < 24 && up[h]
    requires exists d :: 0 <= d < 24 && !up[d]
    ensures exists r :: r in IntendedRuns(up) && r.first <= h < r.stop
  {
    var n := |up|;
    var d :| 0 <= d < n && !up[d];
    var b := NextDown(up, h);
    RunStartBelow(up, h, b - 1);
    var a := RunStart(up, b - 1);
    var closed := ClosedRuns(up, n);
    assert IntendedRuns(up) == closed + (if up[n - 1] then [Run(RunStart(up, n - 1), n)] else []);
    if b < n {
      ClosedRunsComplete(up, Run(a, b));
      assert Run(a, b) in closed;
    } else {
      assert up[n - 1] && a == RunStart(up, n - 1);
    }
  }

  /** Every reported run is a maximal stretch of up hours, reported with
      its true end: the hour after it is down or it reaches midnight. */
  lemma IntendedRunsAreMaximal(up: seq<bool>)
    requires |up| == 24
    ensures forall r :: r in IntendedRuns(up) ==>
              && r.first < r.stop <= 24
              && (forall j :: r.first <= j < r.stop ==> up[j])
              && (r.stop == 24 || !up[r.stop])
              && (r.first == 0 || !up[r.first - 1])
  {
    var n := |up|;
    forall r | r in IntendedRuns(up)
      ensures r.first < r.stop <= 24
      ensures forall j :: r.first <= j < r.stop ==> up[j]
      ensures r.stop == 24 || !up[r.stop]
      ensures r.first == 0 || !up[r.first - 1]
    {
      if r in ClosedRuns(up, n) {
        ClosedRunFacts(up, n, r);
      } else {
        assert up[n - 1] && r == Run(RunStart(up, n - 1), n);
        TailRunFacts(up, n - 1);
      }
    }
  }

  lemma ClosedRunFacts(up: seq<bool>, n: nat, r: Run)
    requires n <= |up| && r in ClosedRuns(up, n)
    ensures r.first < r.stop < |up| && !up[r.stop] && (r.first == 0 || !up[r.first - 1])
    ensures forall j :: r.first <= j < r.stop ==> up[j]
  {
  }

  lemma TailRunFacts(up: seq<bool>, k: nat)
    requires k < |up| && up[k]
    ensures RunStart(up, k) == 0 || !up[RunStart(up, k) - 1]
    ensures forall j :: RunStart(up, k) <= j < k + 1 ==> up[j]
  {
  }

  // ---------------------------------------------------------------------
  // Worked examples

  /** `PrintHours` of an always-up node is empty: no hour closes a run. */
  lemma AlwaysUpPrintsNothing(t: NodeTimes)
    requires AlwaysUp(t)
    ensures Join(" and ", PrintedSegments(ClosedRuns(HourTable(t), 24))) == ""
  {
    ClosedRunsSkip(HourTable(t), 0, 24);
  }

  /** Equal times, or a time past 24:00, mean always up. */
  lemma DegenerateWindowsAlwaysUp(start: UShort, end: UShort)
    requires start == end || start > MaxEncodedTime || end > MaxEncodedTime
    ensures AlwaysUp(FromEphemeralTime(start, end))
  {
  }

  /** Two times within one hour give a node that is never up: the wrap test
      is a strict `end < start` on the hours. */
  lemma SameHourWindowNeverUp(start: UShort, end: UShort)
    requires start != end && start <= MaxEncodedTime && end <= MaxEncodedTime
    requires start / 100 == end / 100
    ensures forall h :: 0 <= h < 24 ==> !IsUp(FromEphemeralTime(start, end), h)
  {
  }

  /** 22:00 to 02:00 wraps past midnight: hours 22, 23, 0 and 1. */
  lemma WrapAroundWindow()
    ensures forall h :: 0 <= h < 24 ==>
              (IsUp(FromEphemeralTime(2200, 200), h) <==> h == 22 || h == 23 || h == 0 || h == 1)
  {
    WindowOfHours(2200, 200, 22, 2);
  }

  /** A proper window read on whole hours `s` and `e`. */
  lemma WindowOfHours(start: UShort, end: UShort, s: nat, e: nat)
    requires start != end && start <= MaxEncodedTime && end <= MaxEncodedTime
    requires start / 100 == s && end / 100 == e
    ensures forall h :: 0 <= h < 24 ==>
              (IsUp(FromEphemeralTime(start, end), h) <==> if e < s then s <= h || h < e else s <= h < e)
  {
  }

  /** A day with one stretch of up hours `[a, b)` ending before midnight
      prints one segment, whose end is 0 when the stretch is one hour long,
      while the list form prints the true end. */
  lemma SingleRunText(t: NodeTimes, a: nat, b: nat)
    requires a < b < 24
    requires forall h :: 0 <= h < 24 ==> (IsUp(t, h) <==> a <= h < b)
    ensures Join(" and ", PrintedSegments(ClosedRuns(HourTable(t), 24)))
            == Segment(a, if b - a >= 2 then b else 0)
    ensures IntendedHoursText(t) == Segment(a, b)
  {
    var up := HourTable(t);
    SingleClosedRun(up, a, b);
    assert PrintedSegments([Run(a, b)]) == [Segment(a, if b - a >= 2 then b else 0)];
    assert !up[23];
    assert IntendedRuns(up) == [Run(a, b)];
  }

  /** The characters of a segment, spelled out. */
  lemma SegmentSpelled(first: nat, end: nat)
    requires first < 100 && end < 100
    ensures Segment(first, end) ==
              [Digit(first / 10), Digit(first % 10), ':', '0', '0', ' ', '-', ' ',
               Digit(end / 10), Digit(end % 10), ':', '0', '0', ' ', 'E', 'T']
  {
  }

  /** The segment texts the examples below print. */
  lemma SegmentTexts()
    ensures Segment(9, 17) == "09:00 - 17:00 ET"
    ensures Segment(5, 0) == "05:00 - 00:00 ET"
    ensures Segment(5, 6) == "05:00 - 06:00 ET"
    ensures Segment(0, 2) == "00:00 - 02:00 ET"
    ensures Segment(22, 24) == "22:00 - 24:00 ET"
    ensures Segment(1, 3) == "01:00 - 03:00 ET"
    ensures Segment(5, 7) == "05:00 - 07:00 ET"
    ensures Segment(9, 11) == "09:00 - 11:00 ET"
  {
    SegmentSpelled(9, 17);
    SegmentSpelled(5, 0);
    SegmentSpelled(5, 6);
    SegmentSpelled(0, 2);
    SegmentSpelled(22, 24);
    SegmentSpelled(1, 3);
    SegmentSpelled(5, 7);
    SegmentSpelled(9, 11);
  }

  lemma NineToFiveHours()
    ensures forall h :: 0 <= h < 24 ==> (IsUp(FromEphemeralTime(900, 1700), h) <==> 9 <= h < 17)
  {
    WindowOfHours(900, 1700, 9, 17);
  }

  /** 09:00 to 17:00 is up for hours 9 to 16 and prints as one segment. */
  lemma NineToFive()
    ensures forall h :: 0 <= h < 24 ==> (IsUp(FromEphemeralTime(900, 1700), h) <==> 9 <= h < 17)
    ensures Join(" and ", PrintedSegments(ClosedRuns(HourTable(FromEphemeralTime(900, 1700)), 24)))
            == "09:00 - 17:00 ET"
  {
    NineToFiveHours();
    SingleRunText(FromEphemeralTime(900, 1700), 9, 17);
    SegmentTexts();
  }

  // ---------------------------------------------------------------------
  // Rendering as written against the evidently intended rendering

  lemma FiveToSixHours()
    ensures forall h :: 0 <= h < 24 ==> (IsUp(FromEphemeralTime(500, 600), h) <==> 5 <= h < 6)
  {
    WindowOfHours(500, 600, 5, 6);
  }

  /** As written, a node up from 05:00 to 06:00 prints "05:00 - 00:00 ET". */
  lemma OneHourWindowPrintsMidnight()
    ensures Join(" and ", PrintedSegments(ClosedRuns(HourTable(FromEphemeralTime(500, 600)), 24)))
            == "05:00 - 00:00 ET"
  {
    FiveToSixHours();
    SingleRunText(FromEphemeralTime(500, 600), 5, 6);
    SegmentTexts();
  }

  /** Reporting each run with its true end prints "05:00 - 06:00 ET". */
  lemma IntendedOneHourWindow()
    ensures IntendedHoursText(FromEphemeralTime(500, 600)) == "05:00 - 06:00 ET"
  {
    FiveToSixHours();
    SingleRunText(FromEphemeralTime(500, 600), 5, 6);
    SegmentTexts();
  }

  /** The only run of 22:00 to 02:00 that closes within the day is 0-2. */
  lemma WrapAroundClosedRuns(up: seq<bool>)
    requires |up| == 24
    requires forall h :: 0 <= h < 24 ==> (up[h] <==> h == 22 || h == 23 || h == 0 || h == 1)
    ensures ClosedRuns(up, 24) == [Run(0, 2)]
  {
    ClosedRunsEndWith(up, 0, 2, 24);
    ClosedRunsSkip(up, 0, 2);
  }

  /** Reported in full, 22:00 to 02:00 is two runs: 0-2 and 22-24. */
  lemma WrapAroundIntendedRuns(up: seq<bool>)
    requires |up| == 24
    requires forall h :: 0 <= h < 24 ==> (up[h] <==> h == 22 || h == 23 || h == 0 || h == 1)
    ensures IntendedRuns(up) == [Run(0, 2), Run(22, 24)]
  {
    WrapAroundClosedRuns(up);
    RunStartOf(up, 22, 23);
    assert !up[5];
  }

  /** As written, 22:00 to 02:00 prints only "00:00 - 02:00 ET": hour 22 is
      up, yet no printed run contains it. */
  lemma WrapAroundDropsLateRun()
    ensures IsUp(FromEphemeralTime(2200, 200), 22)
    ensures forall r :: r in ClosedRuns(HourTable(FromEphemeralTime(2200, 200)), 24) ==>
              !(r.first <= 22 < r.stop)
    ensures Join(" and ", PrintedSegments(ClosedRuns(HourTable(FromEphemeralTime(2200, 200)), 24)))
            == "00:00 - 02:00 ET"
  {
    WrapAroundWindow();
    WrapAroundClosedRuns(HourTable(FromEphemeralTime(2200, 200)));
    assert PrintedSegments([Run(0, 2)]) == [Segment(0, 2)];
    SegmentTexts();
  }

  /** The list form of two segments joins them with " and ". */
  lemma ListJoinTwo(x: string, y: string)
    ensures ListJoin([x, y]) == x + " and " + y
  {
    assert [x, y][..1] == [x];
  }

  /** The list form of three segments uses ", " and then " and ". */
  lemma ListJoinThree(x: string, y: string, z: string)
    ensures ListJoin([x, y, z]) == x + ", " + y + " and " + z
  {
    assert [x, y, z][..2] == [x, y];
    assert [x, y][..1] == [x];
    assert Join(", ", [x, y]) == Join(", ", [x]) + ", " + y;
  }

  /** `Join` of three strings puts the separator twice. */
  lemma JoinThree(sep: string, x: string, y: string, z: string)
    ensures Join(sep, [x, y, z]) == x + sep + y + sep + z
  {
    assert [x, y, z][..2] == [x, y];
    assert [x, y][..1] == [x];
    assert Join(sep, [x, y, z]) == Join(sep, [x, y]) + sep + z;
    assert Join(sep, [x, y]) == Join(sep, [x]) + sep + y;
  }

  /** The list text of a day whose runs are known. */
  lemma IntendedTextOf(t: NodeTimes, runs: seq<Run>)
    requires IntendedRuns(HourTable(t)) == runs
    ensures forall r :: r in runs ==> r.first < r.stop <= 24
    ensures IntendedHoursText(t) ==
              ListJoin(seq(|runs|, j requires 0 <= j < |runs| => Segment(runs[j].first, runs[j].stop)))
  {
  }

  /** Reporting every run prints both halves of the wrapped window. */
  lemma IntendedWrapAround()
    ensures IntendedHoursText(FromEphemeralTime(2200, 200)) == "00:00 - 02:00 ET" + " and " + "22:00 - 24:00 ET"
  {
    WrapAroundWindow();
    WrapAroundText(FromEphemeralTime(2200, 200));
    SegmentTexts();
  }

  /** Any day up from 22:00 to 02:00 lists its two runs. */
  lemma WrapAroundText(t: NodeTimes)
    requires forall h :: 0 <= h < 24 ==> (IsUp(t, h) <==> h == 22 || h == 23 || h == 0 || h == 1)
    ensures IntendedHoursText(t) == Segment(0, 2) + " and " + Segment(22, 24)
  {
    WrapAroundIntendedRuns(HourTable(t));
    TwoRunsListed(t, Run(0, 2), Run(22, 24));
  }

  /** The list text of a day with exactly two runs. */
  lemma TwoRunsListed(t: NodeTimes, r1: Run, r2: Run)
    requires IntendedRuns(HourTable(t)) == [r1, r2]
    ensures r1.first < r1.stop <= 24 && r2.first < r2.stop <= 24
    ensures IntendedHoursText(t) == Segment(r1.first, r1.stop) + " and " + Segment(r2.first, r2.stop)
  {
    var runs := [r1, r2];
    assert r1 in runs && r2 in runs;
    IntendedTextOf(t, runs);
    assert seq(|runs|, j requires 0 <= j < |runs| => Segment(runs[j].first, runs[j].stop))
           == [Segment(r1.first, r1.stop), Segment(r2.first, r2.stop)];
    ListJoinTwo(Segment(r1.first, r1.stop), Segment(r2.first, r2.stop));
  }

  /** The three slots of a rare-pop table used below: 01:00, 05:00 and
      09:00, each for two hours. */
  const ThreeSlots: seq<RarePopSlot> :=
    [RarePopSlot(100, 200), RarePopSlot(500, 200), RarePopSlot(900, 200)]

  /** A two-hour slot starting on the hour `s` covers hours `s` and `s + 1`. */
  lemma TwoHourSlot(s: nat, h: nat)
    requires s <= 21 && h < 24
    ensures SlotCovers(RarePopSlot(s * 100, 200), h) <==> s <= h < s + 2
  {
    assert SlotEnd(RarePopSlot(s * 100, 200)) == s * 100 + 200;
  }

  /** Which of the three slots covers which hour. */
  lemma ThreeSlotsCover(h: nat)
    requires h < 24
    ensures SomeSlotCovers(ThreeSlots, h) <==> 1 <= h < 3 || 5 <= h < 7 || 9 <= h < 11
  {
    TwoHourSlot(1, h);
    TwoHourSlot(5, h);
    TwoHourSlot(9, h);
    assert ThreeSlots[0] == RarePopSlot(1 * 100, 200);
    assert ThreeSlots[1] == RarePopSlot(5 * 100, 200);
    assert ThreeSlots[2] == RarePopSlot(9 * 100, 200);
    if 1 <= h < 3 { assert SlotCovers(ThreeSlots[0], h); }
    if 5 <= h < 7 { assert SlotCovers(ThreeSlots[1], h); }
    if 9 <= h < 11 { assert SlotCovers(ThreeSlots[2], h); }
  }

  /** Three two-hour slots give three separate stretches. */
  lemma ThreeSlotsHours()
    ensures forall h :: 0 <= h < 24 ==>
              (IsUp(FromRarePopTable(Some(ThreeSlots)), h) <==> 1 <= h < 3 || 5 <= h < 7 || 9 <= h < 11)
  {
    forall h | 0 <= h < 24
      ensures IsUp(FromRarePopTable(Some(ThreeSlots)), h) <==> 1 <= h < 3 || 5 <= h < 7 || 9 <= h < 11
    {
      ThreeSlotsCover(h);
    }
  }

  lemma ThreeSlotsRuns(up: seq<bool>)
    requires |up| == 24
    requires forall h :: 0 <= h < 24 ==> (up[h] <==> 1 <= h < 3 || 5 <= h < 7 || 9 <= h < 11)
    ensures ClosedRuns(up, 24) == [Run(1, 3), Run(5, 7), Run(9, 11)]
    ensures IntendedRuns(up) == [Run(1, 3), Run(5, 7), Run(9, 11)]
  {
    ClosedRunsEndWith(up, 9, 11, 24);
    ClosedRunsEndWith(up, 5, 7, 11);
    ClosedRunsEndWith(up, 1, 3, 7);
    ClosedRunsSkip(up, 0, 3);
    assert !up[0] && !up[23];
  }

  /** As written, every segment after the first follows " and ". */
  lemma ThreeRunsJoinedWithAnd()
    ensures Join(" and ", PrintedSegments(ClosedRuns(HourTable(FromRarePopTable(Some(ThreeSlots))), 24)))
            == "01:00 - 03:00 ET" + " and " + "05:00 - 07:00 ET" + " and " + "09:00 - 11:00 ET"
  {
    ThreeSlotsHours();
    ThreeRunsText(FromRarePopTable(Some(ThreeSlots)));
    SegmentTexts();
  }

  /** The list form separates all but the last segment with ", ". */
  lemma IntendedThreeRuns()
    ensures IntendedHoursText(FromRarePopTable(Some(ThreeSlots)))
            == "01:00 - 03:00 ET" + ", " + "05:00 - 07:00 ET" + " and " + "09:00 - 11:00 ET"
  {
    ThreeSlotsHours();
    ThreeRunsText(FromRarePopTable(Some(ThreeSlots)));
    SegmentTexts();
  }

  /** Both texts of any day up for hours 1-2, 5-6 and 9-10. */
  lemma ThreeRunsText(t: NodeTimes)
    requires forall h :: 0 <= h < 24 ==> (IsUp(t, h) <==> 1 <= h < 3 || 5 <= h < 7 || 9 <= h < 11)
    ensures Join(" and ", PrintedSegments(ClosedRuns(HourTable(t), 24)))
            == Segment(1, 3) + " and " + Segment(5, 7) + " and " + Segment(9, 11)
    ensures IntendedHoursText(t) == Segment(1, 3) + ", " + Segment(5, 7) + " and " + Segment(9, 11)
  {
    ThreeSlotsRuns(HourTable(t));
    ThreeRunsPrinted(ClosedRuns(HourTable(t), 24), Run(1, 3), Run(5, 7), Run(9, 11));
    ThreeRunsListed(t, Run(1, 3), Run(5, 7), Run(9, 11));
  }

  /** The text as written of three closed runs. */
  lemma ThreeRunsPrinted(runs: seq<Run>, r1: Run, r2: Run, r3: Run)
    requires runs == [r1, r2, r3]
    requires forall r :: r in runs ==> r.first < r.stop <= 24
    ensures Join(" and ", PrintedSegments(runs))
            == Segment(r1.first, PrintedEnd(r1)) + " and " + Segment(r2.first, PrintedEnd(r2))
               + " and " + Segment(r3.first, PrintedEnd(r3))
  {
    assert PrintedSegments(runs)
           == [Segment(r1.first, PrintedEnd(r1)), Segment(r2.first, PrintedEnd(r2)), Segment(r3.first, PrintedEnd(r3))];
    JoinThree(" and ", Segment(r1.first, PrintedEnd(r1)), Segment(r2.first, PrintedEnd(r2)),
              Segment(r3.first, PrintedEnd(r3)));
  }

  /** The list text of a day with exactly three runs. */
  lemma ThreeRunsListed(t: NodeTimes, r1: Run, r2: Run, r3: Run)
    requires IntendedRuns(HourTable(t)) == [r1, r2, r3]
    ensures r1.first < r1.stop <= 24 && r2.first < r2.stop <= 24 && r3.first < r3.stop <= 24
    ensures IntendedHoursText(t) == Segment(r1.first, r1.stop) + ", " + Segment(r2.first, r2.stop)
                                    + " and " + Segment(r3.first, r3.stop)
  {
    var runs := [r1, r2, r3];
    assert r1 in runs && r2 in runs && r3 in runs;
    IntendedTextOf(t, runs);
    ListedSegments(runs);
    ListJoinThree(Segment(r1.first, r1.stop), Segment(r2.first, r2.stop), Segment(r3.first, r3.stop));
  }

  /** The segments of three runs, in order. */
  lemma ListedSegments(runs: seq<Run>)
    requires |runs| == 3 && forall r :: r in runs ==> r.first < r.stop <= 24
    ensures seq(|runs|, j requires 0 <= j < |runs| => Segment(runs[j].first, runs[j].stop))
            == [Segment(runs[0].first, runs[0].stop), Segment(runs[1].first, runs[1].stop),
                Segment(runs[2].first, runs[2].stop)]
  {
  }
}

=== FILE: sub_nodes.dfy ===
/**
  The aggregate of a node's sightings (`SubNodes` in Classes/Node.cs): the
  locations recorded per sighting id, their mean position, and the
  aetheryte of the node's territory closest to that mean. Every accepted
  sighting recomputes the mean and then the closest aetheryte.

  Aetherytes, territories and sighting locations are classes of their own
  that this class only reads, and two of their methods are called here:
  `NodeLocation.AddLocation`, which merges a further sighting into a stored
  location, and `Aetheryte.WorldDistance`. Both come in as function
  parameters.
*/
module SubNodes {
  import opened Wrappers

  /** An aetheryte, by identity. */
  datatype Aetheryte = Aetheryte(id: nat)

  /** A territory: its id and its aetherytes in list order. */
  datatype Territory = Territory(id: nat, aetherytes: seq<Aetheryte>)

  /** The part of a sighting location this class reads: its own mean
      position. */
  datatype NodeLocation = NodeLocation(averageX: int, averageY: int)

  /** The `nodes` dictionary: sighting id to location, where a stored
      location may be null. */
  type Sightings = map<nat, Option<NodeLocation>>

  datatype SubNodes = SubNodes(territory: Option<Territory>, closestAetheryte: Option<Aetheryte>,
                               nodes: Sightings, averageX: int, averageY: int)

  /** A fresh aggregate for a territory: no sightings, mean (0, 0), no
      aetheryte. The field initialiser leaves `territory` null; the
      parameter stands for the territory the caller assigns right after
      construction (pass `None` for the record as constructed). */
  function NewSubNodes(territory: Option<Territory>): (s: SubNodes)
    ensures s.territory == territory
    ensures s.nodes == map[] && s.averageX == 0 && s.averageY == 0 && s.closestAetheryte.None?
  {
    SubNodes(territory, None, map[], 0, 0)
  }

  /** `a.WorldDistance(territoryId, x, y)`. */
  type Distance = (Aetheryte, nat, int, int) -> real

  /** `oldLoc.AddLocation(loc)`: `None` when the call answers false and
      leaves `oldLoc` as it was, `Some(updated)` when it answers true and
      `oldLoc` has become `updated`. */
  type Merge = (NodeLocation, Option<NodeLocation>) -> Option<NodeLocation>

  // ---------------------------------------------------------------------
  // Truncating mean

  /** C#'s `int` division for a positive divisor: the quotient rounded
      toward zero. */
  function Quot(a: int, n: int): (q: int)
    requires n > 0
    ensures a >= 0 ==> 0 <= q && q * n <= a && a - q * n < n
    ensures a < 0 ==> q <= 0 && a <= q * n && q * n - a < n
  {
    if a >= 0 then
      DivBounds(a, n);
      a / n
    else
      DivBounds(-a, n);
      assert -(-a / n) * n == -((-a / n) * n);
      -(-a / n)
  }

  lemma DivBounds(b: int, n: int)
    requires b >= 0 && n > 0
    ensures 0 <= b / n && (b / n) * n <= b && b - (b / n) * n < n
  {
    assert b == (b / n) * n + b % n;
  }

  /** A quotient of a value between `lo * n` and `hi * n` lies between `lo`
      and `hi`, whichever way it rounds. */
  lemma QuotBetween(a: int, n: int, lo: int, hi: int)
    requires n > 0 && lo * n <= a <= hi * n
    ensures lo <= Quot(a, n) <= hi
  {
    var q := Quot(a, n);
    if q < lo {
      assert (q + 1) * n == q * n + n;
      MulMonotone(q + 1, lo, n);
    }
    if q > hi {
      assert (q - 1) * n == q * n - n;
      MulMonotone(hi, q - 1, n);
    }
  }

  lemma MulMonotone(x: int, y: int, n: int)
    requires x <= y && n > 0
    ensures x * n <= y * n
  {
    assert y * n - x * n == (y - x) * n;
  }

  /** The contribution of one stored location: nothing for a null one. */
  function Contribution(l: Option<NodeLocation>, f: NodeLocation -> int): int
  {
    if l.Some? then f(l.value) else 0
  }

  /** The sum of `f` over the non-null locations. */
  ghost function SumOf(m: Sightings, f: NodeLocation -> int): int
    decreases |m|
  {
    if m == map[] then 0
    else
      var k :| k in m;
      Contribution(m[k], f) + SumOf(m - {k}, f)
  }

  /** Summing may start from any entry. */
  lemma {:induction false} SumOfRemove(m: Sightings, k: nat, f: NodeLocation -> int)
    requires k in m
    ensures SumOf(m, f) == Contribution(m[k], f) + SumOf(m - {k}, f)
    decreases |m|
  {
    var j :| j in m && SumOf(m, f) == Contribution(m[j], f) + SumOf(m - {j}, f);
    if j != k {
      var mj := m - {j};
      var mk := m - {k};
      SumOfRemove(mj, k, f);
      SumOfRemove(mk, j, f);
      assert mj - {k} == mk - {j};
    }
  }

  function X(l: NodeLocation): int { l.averageX }
  function Y(l: NodeLocation): int { l.averageY }
  function One(l: NodeLocation): int { 1 }

  /** The number of non-null locations. */
  ghost function Count(m: Sightings): int
  {
    SumOf(m, One)
  }

  /** When every non-null location has `f` between `lo` and `hi`, the sum
      lies between `lo` and `hi` times their number. */
  lemma {:induction false} SumOfBetween(m: Sightings, f: NodeLocation -> int, lo: int, hi: int)
    requires forall k :: k in m && m[k].Some? ==> lo <= f(m[k].value) <= hi
    ensures lo * Count(m) <= SumOf(m, f) <= hi * Count(m)
    ensures Count(m) >= 0
    decreases |m|
  {
    if m != map[] {
      var k :| k in m;
      var rest := m - {k};
      SumOfRemove(m, k, f);
      SumOfRemove(m, k, One);
      assert forall j :: j in rest && rest[j].Some? ==> lo <= f(rest[j].value) <= hi;
      SumOfBetween(rest, f, lo, hi);
      var c, v := Contribution(m[k], One), Contribution(m[k], f);
      var rc, rs := Count(rest), SumOf(rest, f);
      assert Count(m) == c + rc && SumOf(m, f) == v + rs;
      SumStep(lo, hi, c, v, rc, rs);
    } else {
      EmptySums(m, f, lo, hi);
    }
  }

  /** No locations: the sum and the count are both 0. */
  lemma EmptySums(m: Sightings, f: NodeLocation -> int, lo: int, hi: int)
    requires m == map[]
    ensures lo * Count(m) <= SumOf(m, f) <= hi * Count(m)
    ensures Count(m) >= 0
  {
    assert Count(m) == 0 && SumOf(m, f) == 0;
  }

  /** One more term in a bounded sum. */
  lemma SumStep(lo: int, hi: int, c: int, v: int, rc: int, rs: int)
    requires (c == 1 && lo <= v <= hi) || (c == 0 && v == 0)
    requires lo * rc <= rs <= hi * rc
    ensures lo * (c + rc) <= v + rs <= hi * (c + rc)
  {
    Distribute(lo, c, rc);
    Distribute(hi, c, rc);
  }

  lemma Distribute(a: int, b: int, c: int)
    ensures a * (b + c) == a * b + a * c
  {
  }

  /** Some stored location is non-null exactly when the count is positive. */
  lemma {:induction false} CountPositive(m: Sightings)
    ensures Count(m) >= 0
    ensures Count(m) > 0 <==> exists k :: k in m && m[k].Some?
    decreases |m|
  {
    if m != map[] {
      var k :| k in m;
      SumOfRemove(m, k, One);
      CountPositive(m - {k});
      if exists j :: j in m && m[j].Some? {
        var j :| j in m && m[j].Some?;
        if j != k {
          assert j in m - {k};
        }
      }
      if exists j :: j in m - {k} && (m - {k})[j].Some? {
        var j :| j in m - {k} && (m - {k})[j].Some?;
        assert j in m && m[j].Some?;
      }
    }
  }

  /** The truncated mean of `f` over the non-null locations. */
  ghost function Mean(m: Sightings, f: NodeLocation -> int): int
    requires Count(m) > 0
  {
    Quot(SumOf(m, f), Count(m))
  }

  /** The mean lies within the range of the values it averages. */
  lemma MeanBetween(m: Sightings, f: NodeLocation -> int, lo: int, hi: int)
    requires Count(m) > 0
    requires forall k :: k in m && m[k].Some? ==> lo <= f(m[k].value) <= hi
    ensures lo <= Mean(m, f) <= hi
  {
    SumOfBetween(m, f, lo, hi);
    QuotBetween(SumOf(m, f), Count(m), lo, hi);
  }

  /** Replacing a stored location by one with the same position leaves
      every sum, and so the mean, as it was. */
  lemma SamePositionSameSums(m: Sightings, k: nat, l: NodeLocation)
    requires k in m && m[k].Some? && X(m[k].value) == X(l) && Y(m[k].value) == Y(l)
    ensures SumOf(m[k := Some(l)], X) == SumOf(m, X)
    ensures SumOf(m[k := Some(l)], Y) == SumOf(m, Y)
    ensures Count(m[k := Some(l)]) == Count(m)
  {
    var m' := m[k := Some(l)];
    assert m' - {k} == m - {k};
    SumOfRemove(m, k, X);
    SumOfRemove(m', k, X);
    SumOfRemove(m, k, Y);
    SumOfRemove(m', k, Y);
    SumOfRemove(m, k, One);
    SumOfRemove(m', k, One);
  }

  /** `RecomputeAverage()`: with no entries nothing changes; otherwise the
      mean is the truncated mean over the non-null locations, and if every
      entry is null the division by their number, zero, throws. `after` is
      the object as the call leaves it, also when it throws: the mean has
      been reset to (0, 0) before the division. */
  method RecomputeAverage(s: SubNodes) returns (r: Result<()>, after: SubNodes)
    ensures |s.nodes| == 0 ==> r.Success? && after == s
    ensures |s.nodes| > 0 ==> (r.Success? <==> exists k :: k in s.nodes && s.nodes[k].Some?)
    ensures r.Failure? ==> r.error == DivideByZero && after == s.(averageX := 0, averageY := 0)
    ensures r.Success? && |s.nodes| > 0 ==>
              Count(s.nodes) > 0 &&
              after == s.(averageX := Mean(s.nodes, X), averageY := Mean(s.nodes, Y))
  {
    if |s.nodes| == 0 {
      return Success(()), s;
    }
    var num, sumX, sumY := 0, 0, 0;
    var rest := s.nodes;
    while rest != map[]
      invariant num + Count(rest) == Count(s.nodes)
      invariant sumX + SumOf(rest, X) == SumOf(s.nodes, X)
      invariant sumY + SumOf(rest, Y) == SumOf(s.nodes, Y)
      decreases |rest|
    {
      var k :| k in rest;
      SumOfRemove(rest, k, One);
      SumOfRemove(rest, k, X);
      SumOfRemove(rest, k, Y);
      var p := rest[k];
      if p.Some? {
        num := num + 1;
        sumX := sumX + p.value.averageX;
        sumY := sumY + p.value.averageY;
      }
      rest := rest - {k};
    }
    CountPositive(s.nodes);
    if num == 0 {
      return Failure(DivideByZero), s.(averageX := 0, averageY := 0);
    }
    return Success(()), s.(averageX := Quot(sumX, num), averageY := Quot(sumY, num));
  }

  // ---------------------------------------------------------------------
  // Closest aetheryte

  /** An element of `cands` with the least score. */
  function ClosestIn(cands: seq<Aetheryte>, score: Aetheryte -> real): (a: Aetheryte)
    requires |cands| > 0
    ensures a in cands
    ensures forall b :: b in cands ==> score(a) <= score(b)
    decreases |cands|
  {
    if |cands| == 1 then cands[0]
    else
      var init := cands[..|cands| - 1];
      var best := ClosestIn(init, score);
      var last := cands[|cands| - 1];
      assert cands == init + [last];
      if score(last) < score(best) then last else best
  }

  /** `FindClosestAetheryte()`: no aetheryte without a territory or with an
      empty aetheryte list; otherwise one at least as close to the current
      mean as every other aetheryte of the territory. Only that field
      changes. */
  function FindClosestAetheryte(s: SubNodes, dist: Distance): (r: SubNodes)
    ensures r == s.(closestAetheryte := r.closestAetheryte)
    ensures r.closestAetheryte.None? <==> s.territory.None? || |s.territory.value.aetherytes| == 0
    ensures r.closestAetheryte.Some? ==>
              var t := s.territory.value;
              r.closestAetheryte.value in t.aetherytes &&
              forall b :: b in t.aetherytes ==>
                dist(r.closestAetheryte.value, t.id, s.averageX, s.averageY) <= dist(b, t.id, s.averageX, s.averageY)
  {
    if s.territory.None? || |s.territory.value.aetherytes| == 0 then
      s.(closestAetheryte := None)
    else
      var t := s.territory.value;
      s.(closestAetheryte := Some(ClosestIn(t.aetherytes, a => dist(a, t.id, s.averageX, s.averageY))))
  }

  /** The closest aetheryte depends only on the territory and the mean, so
      finding it again changes nothing. */
  lemma FindClosestIdempotent(s: SubNodes, dist: Distance)
    ensures FindClosestAetheryte(FindClosestAetheryte(s, dist), dist) == FindClosestAetheryte(s, dist)
  {
  }

  // ---------------------------------------------------------------------
  // Adding a sighting

  /** The location stored under `nodeId` is non-null. */
  predicate HasLocation(s: SubNodes, nodeId: nat)
  {
    nodeId in s.nodes && s.nodes[nodeId].Some?
  }

  /** The entry `AddNodeLocation` leaves under `nodeId`, when it changes
      anything: the merged location for a stored one, `loc` otherwise. */
  function StoredAfter(s: SubNodes, nodeId: nat, loc: Option<NodeLocation>, merge: Merge): Option<NodeLocation>
  {
    if HasLocation(s, nodeId) then merge(s.nodes[nodeId].value, loc) else loc
  }

  /** `AddNodeLocation(nodeId, loc)`. A sighting id with a non-null location
      delegates to that location's merge: if the merge declines, nothing
      changes and the answer is false. Otherwise, or for a new id or one
      stored as null, the entry is written, the mean and then the closest
      aetheryte are recomputed, and the answer is true. The recomputation
      throws when every stored location is null; `after` is the object as
      the call leaves it, and then holds the new entry and a mean of (0, 0),
      with the closest aetheryte not recomputed. */
  method AddNodeLocation(s: SubNodes, nodeId: nat, loc: Option<NodeLocation>, merge: Merge, dist: Distance)
    returns (r: Result<bool>, after: SubNodes)
    ensures HasLocation(s, nodeId) && merge(s.nodes[nodeId].value, loc).None? ==>
              r == Success(false) && after == s
    ensures !(HasLocation(s, nodeId) && merge(s.nodes[nodeId].value, loc).None?) ==>
              var nodes := s.nodes[nodeId := StoredAfter(s, nodeId, loc, merge)];
              (r.Success? <==> Count(nodes) > 0) &&
              (r.Failure? ==> r.error == DivideByZero && after == s.(nodes := nodes, averageX := 0, averageY := 0)) &&
              (r.Success? ==>
                 Count(nodes) > 0 && r.value &&
                 after == FindClosestAetheryte(
                   s.(nodes := nodes, averageX := Mean(nodes, X), averageY := Mean(nodes, Y)), dist))
  {
    var stored: Option<NodeLocation>;
    if HasLocation(s, nodeId) {
      var merged := merge(s.nodes[nodeId].value, loc);
      if merged.None? {
        return Success(false), s;
      }
      stored := merged;
    } else {
      stored := loc;
    }
    var nodes := s.nodes[nodeId := stored];
    assert nodeId in nodes;
    CountPositive(nodes);
    var averaged, written := RecomputeAverage(s.(nodes := nodes));
    if averaged.Failure? {
      return Failure(averaged.error), written;
    }
    return Success(true), FindClosestAetheryte(written, dist);
  }

  /** A sighting whose merge keeps its position leaves the mean, and so the
      closest aetheryte, as they were after the last recomputation. */
  lemma SameSightingKeepsAggregate(s: SubNodes, nodeId: nat, l: NodeLocation, dist: Distance)
    requires HasLocation(s, nodeId) && X(s.nodes[nodeId].value) == X(l) && Y(s.nodes[nodeId].value) == Y(l)
    requires Count(s.nodes) > 0
    requires s == FindClosestAetheryte(
                    s.(averageX := Mean(s.nodes, X), averageY := Mean(s.nodes, Y)), dist)
    ensures var nodes := s.nodes[nodeId := Some(l)];
            Count(nodes) > 0 &&
            FindClosestAetheryte(s.(nodes := nodes, averageX := Mean(nodes, X), averageY := Mean(nodes, Y)), dist)
              == s.(nodes := nodes)
  {
    SamePositionSameSums(s.nodes, nodeId, l);
  }

  /** A first sighting, non-null, makes the mean its own position. */
  lemma FirstSightingIsTheMean(nodeId: nat, l: NodeLocation)
    ensures Count(map[nodeId := Some(l)]) == 1
    ensures Mean(map[nodeId := Some(l)], X) == l.averageX
    ensures Mean(map[nodeId := Some(l)], Y) == l.averageY
  {
    var m := map[nodeId := Some(l)];
    assert m - {nodeId} == map[];
    SumOfRemove(m, nodeId, One);
    SumOfRemove(m, nodeId, X);
    SumOfRemove(m, nodeId, Y);
  }

  /** A null first sighting makes the recomputation divide by zero. */
  lemma NullFirstSightingDividesByZero(nodeId: nat)
    ensures Count(map[nodeId := None]) == 0
  {
    CountPositive(map[nodeId := None]);
  }
}

=== FILE: text.dfy ===
/** String helpers used by the rendering functions: separator joins and the
    two-digit zero padding of `n.ToString().PadLeft(2, '0')`. */
module Text {

  /** `xs` joined with `sep` between neighbouring elements. */
  function Join(sep: string, xs: seq<string>): (r: string)
    decreases |xs|
  {
    if |xs| == 0 then ""
    else if |xs| == 1 then xs[0]
    else Join(sep, xs[..|xs| - 1]) + sep + xs[|xs| - 1]
  }

  /** Appending one more element appends the separator and the element. */
  lemma JoinSnoc(sep: string, xs: seq<string>, x: string)
    requires |xs| > 0
    ensures Join(sep, xs + [x]) == Join(sep, xs) + sep + x
  {
    assert (xs + [x])[..|xs|] == xs;
  }

  /** A join is at least as long as its first element. */
  lemma JoinCoversFirst(sep: string, xs: seq<string>)
    requires |xs| > 0
    ensures |Join(sep, xs)| >= |xs[0]|
    decreases |xs|
  {
    if |xs| > 1 {
      JoinCoversFirst(sep, xs[..|xs| - 1]);
    }
  }

  /** The decimal digit for `d`. */
  function Digit(d: nat): char
    requires d < 10
  {
    "0123456789"[d]
  }

  /** `n` in decimal, left-padded with '0' to two characters. */
  function Pad2(n: nat): (r: string)
    requires n < 100
    ensures |r| == 2
  {
    [Digit(n / 10), Digit(n % 10)]
  }

  /** `s` left-padded with `c` to `width` characters, as `String.PadLeft`. */
  function PadLeft(s: string, width: nat, c: char): (r: string)
    ensures |r| == if |s| < width then width else |s|
  {
    if |s| < width then seq(width - |s|, _ => c) + s else s
  }

  /** The padding comes first, then `s` unchanged. */
  lemma PadLeftAt(s: string, width: nat, c: char, i: nat)
    requires i < |PadLeft(s, width, c)|
    ensures var k := |PadLeft(s, width, c)| - |s|;
            PadLeft(s, width, c)[i] == if i < k then c else s[i - k]
  {
  }

  /** The characters of `s` in reverse order. */
  function Reverse(s: string): (r: string)
    ensures |r| == |s|
  {
    seq(|s|, i requires 0 <= i < |s| => s[|s| - 1 - i])
  }

  /** Character `i` of the reversal is character `|s| - 1 - i` of `s`. */
  lemma ReverseAt(s: string, i: nat)
    requires i < |s|
    ensures Reverse(s)[i] == s[|s| - 1 - i]
  {
  }
}

=== FILE: wrappers.dfy ===
/** Failure-carrying result types shared by the model, and the runtime
    failures the C# code can raise instead of returning. */
module Wrappers {

  /** A value that may be absent; stands for a nullable C# reference. */
  datatype Option<+T> = None | Some(value: T)

  /** Either a value or the runtime failure the source would raise. */
  datatype Result<+R> = Success(value: R) | Failure(error: Fault)

  /** The .NET exceptions the modelled code can throw on some inputs. */
  datatype Fault =
    | NullDereference   // NullReferenceException
    | DivideByZero      // DivideByZeroException
}
